=== FILE: README.md ===
# LSSDP environment core in Dafny

This project models the core of `rides_env`, the limited-stop service design
problem (LSSDP). A bus line has an all-stop route over stops `0 .. n-1` and a
fleet of buses. A solution adds a limited-stop service: a sorted subset of the
stops with some of the buses. Every change of that service re-runs a transit
assignment. The assignment returns:

- the time-to-destination matrix;
- the flow on every leg;
- a total cost.

The cost, divided by the cost of the baseline (the whole fleet on the all-stop
route), is the objective.

The modules follow the program:

- `Routes`: `trip_time`, with a reference definition as the sum of leg times.
- `RealSeqs`, `Matrices`, `StatsHelper`: `calculate_stats` and the numpy
  operations it relies on:
  - `np.triu` and the strict upper triangle;
  - `min`, `mean`, `max` and `sum`;
  - the masked division behind `rel_ttd`.
- `Generation`: the deterministic part of `LSSDPInstance.from_network`.
  - Travel times come from distances, speed and dwell time.
  - The bus count is drawn from the feasible-headway range.
  - The demand is normalised and scaled.
  - The baseline is filled in from the solver.
  - The random draws are parameters.
- `Instances`: the instance record, its all-stop trip time, and the solver it
  asks (congested or not).
- `Assignments`: the transit-assignment solvers `mat_linear_assign` and
  `mat_linear_congested_assign`. They are opaque here, so each is an `Oracle`
  function parameter from a request to its answer.
- `Services`: the limited-stop service. `toggle` is a sorted-set flip, and
  `add_bus` / `remove_bus` add or remove one bus.
- `Evaluations`: `_calculate_objective` and `terminate`. Both solution
  variants share this objective bookkeeping.
- `Reports`: the `stats` property.
- `LssdpSolution`: `LSSDPSolution` of `lssdp.py`. The all-stop route runs
  whatever the limited-stop service leaves of the fleet.
- `SplitSolution`: `LSSDPSolution` of `solution.py`. The fleet is split
  between two explicit services, and `add_bus` moves one bus from the
  all-stop service to the limited-stop one.
- `Variants`: proves the two variants are observationally the same. From
  their constructors, any run of toggles, added buses and terminations gives
  the same objective, time to destination, flow and `stats`. The agreement on
  `stats` rests on reading a service's `nstops` as the length of its stop
  list (see `SplitSolution.Capacities` under "Left out").

Floating-point values are modelled as reals. NaN results (numpy's 0/0, a
division by a zero capacity, the placeholder of an uncongested instance) are
explicit constructors or `None`, never numbers.

## Model

| member | source | states |
|---|---|---|
| Routes.TripTimeIsSumOfLegs | src/rides_env/lssdp.py:15-16 | the recursive trip time equals the sum of the travel times of the consecutive-stop legs |
| Routes.LegTimes | src/rides_env/lssdp.py:16 | the legs are the pairs `zip(stops[:-1], stops[1:])` in order: one fewer than the stops, none for fewer than two stops |
| Routes.TripTimeSnoc | src/rides_env/lssdp.py:15-16 | extending a route by one stop adds exactly the travel time of the new leg |
| Routes.TripTimeNonNegative | src/rides_env/lssdp.py:15-16 | non-negative link times give a non-negative trip time |
| Routes.TripTimePositive | src/rides_env/lssdp.py:15-16 | a route of at least two increasing stops over positive link times has a positive trip time, so frequencies are defined |
| Routes.AllStops | src/rides_env/lssdp.py:209-211 | the all-stop sequence holds each stop `0 .. n-1` at its own position |
| RealSeqs.Min | src/rides_env/lssdp.py:31 | the minimum is an element and bounds every element from below |
| RealSeqs.Max | src/rides_env/lssdp.py:33 | the maximum is an element and bounds every element from above |
| RealSeqs.SumBounds | src/rides_env/lssdp.py:32-34 | a sum of values in `[lo, hi]` lies between `len*lo` and `len*hi` |
| StatsHelper.UpperValuesAreStrictUpper | src/rides_env/lssdp.py:24-28 | the selection of a square matrix holds exactly its entries with row < column, n(n-1)/2 of them |
| StatsHelper.UpperValuesInRowOrder | src/rides_env/lssdp.py:24-28 | each strictly-upper entry is selected once, row by row: entry (i, j) sits at its row-order index, and every position holds the entry whose index it is |
| StatsHelper.UpperFromIgnoresLower | src/rides_env/lssdp.py:24-28 | matrices that agree strictly above the diagonal select the same values |
| StatsHelper.Summarise | src/rides_env/lssdp.py:30-35 | no summary for an empty selection (numpy raises). Otherwise min and max are selected values bounding all of them, `mean*len == sum`, `min <= mean <= max`, and the fourth slot is the sum exactly when asked for (NaN otherwise) |
| StatsHelper.CalculateOnSquare | src/rides_env/lssdp.py:19-35 | on a square matrix the summary is missing exactly for fewer than two rows. Otherwise its min and max are strict-upper entries that bound every strict-upper entry |
| StatsHelper.SingleValueSummary | src/rides_env/lssdp.py:381 | the summary of a one-value array has that value in all four slots |
| StatsHelper.CalculateIgnoresLower | src/rides_env/lssdp.py:24-28 | square matrices that agree strictly above the diagonal have the same summary |
| Matrices.Triu | src/rides_env/lssdp.py:276 | `np.triu(m, 1)` keeps the entries above the diagonal and zeroes the rest |
| Matrices.MaskedRatio | src/rides_env/lssdp.py:431-436 | the ratio times the baseline gives the time to destination wherever the baseline is non-zero; the ratio is zero elsewhere |
| Matrices.MaskedRatioUnique | src/rides_env/lssdp.py:431-436 | the masked ratio is the only matrix with that property |
| Matrices.SelfRatioIsTriuOnes | src/rides_env/lssdp.py:341 | at the baseline (zero on and below the diagonal, non-zero above) the masked ratio equals the `triu(ones, 1)` the constructor stores |
| Matrices.FlattenInRowOrder | src/rides_env/lssdp.py:24-28 | a non-square array is summarised over all its entries, each once, row by row: entry (i, j) sits after the earlier rows, and every position holds the entry whose position it is |
| Generation.TravelTimes | src/rides_env/lssdp.py:248 | each link time above the diagonal is `distance/speed/1000*60 + dwell` of that pair, and zero on and below the diagonal |
| Generation.TravelTimesAtLeastDwell | src/rides_env/lssdp.py:248 | with non-negative distances and positive speed every link time is at least the dwell time |
| Generation.DrawBuses | src/rides_env/lssdp.py:251-255 | the draw fails exactly when `ceil(T/max_headway) > floor(T/min_headway)`; otherwise it lies in that range |
| Generation.DrawReachesEveryCount | src/rides_env/lssdp.py:252-255 | every count in the range is drawn by some random value |
| Generation.BusRangeIsFeasibleHeadways | src/rides_env/lssdp.py:252-255 | a positive bus count is in the drawn range exactly when its headway `T/v` lies within `[min_headway, max_headway]` |
| Generation.EmptyBusRangeExample | src/rides_env/lssdp.py:252-255 | a 10-minute route with headways 3.5 to 4.5 has an empty range (3 > 2), so generation fails |
| Generation.Peak | src/rides_env/lssdp.py:276-277 | the peak of the strict upper triangle is non-negative and bounds every upper entry, and it is attained when non-zero |
| Generation.Normalise | src/rides_env/lssdp.py:276-277 | fails exactly when the peak is zero (a matrix of NaN or -inf entries). Otherwise upper entries are divided by the peak and the rest are zero |
| Generation.NormaliseUnitPeak | src/rides_env/lssdp.py:276-277 | non-negative raw demand normalises into `[0, 1]`, with some pair at exactly 1 |
| Generation.ScaleRows | src/rides_env/lssdp.py:279-284 | row `i` is scaled by `factor/(n+1-i)`, and the lower triangle stays zero |
| Generation.ScaledDemandBounds | src/rides_env/lssdp.py:279-284 | each scaled entry is at most `factor/(n+1-i)`, hence at most `factor/3` on the upper triangle |
| Generation.Demand | src/rides_env/lssdp.py:276-284 | fails exactly when the peak is zero; otherwise the normalised demand scaled row by row (`ScaleRows` of `Normalise`), an n-by-n matrix, zero on and below the diagonal, and in `[0, factor/3]` for non-negative raw demand |
| Generation.Draft | src/rides_env/lssdp.py:248-292 | fails exactly on an empty bus range or zero peak demand. Otherwise its travel times, bus count and demand are those the three steps compute, with upper-triangular matrices, headway within bounds, the default iteration cap, and demand in `[0, rand*capacity*max_od_demand/3]` |
| Generation.WithBaseline | src/rides_env/lssdp.py:302-321 | the baseline is the solver's answer for the whole fleet on the all-stop route, asked with the caller's cap; the problem data is unchanged |
| Generation.FromNetwork | src/rides_env/lssdp.py:248-321 | the failure cases; the travel times, bus count and demand of the three steps; shape and headway guarantees; and a baseline asked of the congested solver exactly when the instance is congested |
| Generation.FromNetworkWellFormed | src/rides_env/lssdp.py:248-321 | when the solver returns an n-by-n time-to-destination matrix, a built instance has everything the solution layer needs exactly when its baseline cost is non-zero |
| Generation.IterationCapDiverges | src/rides_env/lssdp.py:286-310 | for a congested instance and a cap other than 10000, the baseline request and the instance's own request carry different caps |
| Generation.FromNetworkKeepingIters | src/rides_env/lssdp.py:286-321 | the corrected generation keeps the caller's cap, and its baseline answers the instance's own all-stop request |
| Generation.KeptCapMatchesEvaluations | src/rides_env/lssdp.py:302-310 | with the cap kept, the baseline and every later evaluation use the same solver settings |
| Instances.AllStopTripTimePositive | src/rides_env/lssdp.py:213-216 | the all-stop trip time of a well-formed instance is positive |
| Instances.CongestionOf | src/rides_env/lssdp.py:410-425 | the congested solver, with capacity and iteration cap, is used exactly when the instance is congested |
| Instances.BaselineRequest | src/rides_env/lssdp.py:302-317 | the all-stop route at frequency `nbuses / ass_trip_time` over the instance's travel times and demand |
| Instances.BaselineRequestIgnoresBaseline | src/rides_env/lssdp.py:302-321 | filling in the baseline does not change the baseline request |
| Services.Toggle | src/rides_env/lssdp.py:387-389 | flips the membership of one stop, keeps every other stop, the order and the bus count, and changes the length by one |
| Services.ToggleTwice | src/rides_env/lssdp.py:387-389 | toggling the same stop twice restores the service |
| Services.ToggleWellFormed | src/rides_env/lssdp.py:387-389 | toggling an in-range stop keeps the service sorted and inside the instance |
| Services.AddBus | src/rides_env/lssdp.py:391-393 | one more bus and the same stops |
| Services.RemoveBus | src/rides_env/solution.py:64-67 | one fewer bus and the same stops |
| Services.Frequency | src/rides_env/solution.py:78-79 | a service's frequency times its trip time is its bus count |
| Evaluations.Fresh | src/rides_env/lssdp.py:337-341 | objective and checkpoint at 1, baseline time to destination and flow, ratio one strictly above the diagonal and zero elsewhere |
| Evaluations.Terminate | src/rides_env/lssdp.py:384-385 | checkpoints the objective and changes nothing else |
| Evaluations.TerminateIdempotent | src/rides_env/lssdp.py:384-385 | terminating twice is terminating once, and afterwards the checkpoint equals the objective |
| Evaluations.Recompute | src/rides_env/lssdp.py:395-436 | the checkpoint is the previous objective. Without a service: baseline objective, time to destination and ratio, and the flow is kept. With one: `obj*base_obj == cost`, the solver's ttd and flow, and the masked ratio |
| Evaluations.RecomputeSettles | src/rides_env/lssdp.py:395-436 | every recompute leaves the figures consistent with its request |
| Evaluations.RecomputeSettledIsStable | src/rides_env/lssdp.py:395-436 | recomputing a settled evaluation reproduces its objective, ttd and ratio, and its flow when the service is valid |
| Evaluations.RecomputeResettingFlow | src/rides_env/lssdp.py:396-402 | the corrected invalid branch also restores the baseline flow and leaves a settled evaluation |
| Reports.LoadFactorStats | src/rides_env/lssdp.py:376-380 | the NaN placeholder exactly when not congested; a shape error exactly when flow and capacities do not broadcast; a non-finite result exactly when some capacity is zero; otherwise the summary of the element-wise factors |
| Reports.Divide | src/rides_env/lssdp.py:377 | `np.divide` with broadcasting: on equal lengths each factor times its capacity is its flow; a one-entry capacity divides every flow, and a one-entry flow is divided by every capacity |
| Reports.Drop | src/rides_env/lssdp.py:371 | `flow[k:]` is the rest after the first k entries, empty past the end |
| Reports.LimitedStopShare | src/rides_env/lssdp.py:367-372 | 0 without a service; with one, non-finite (NaN, or ±inf for a non-zero limited-stop flow) exactly when the total flow is zero, and otherwise the share times the total is the limited-stop flow |
| Reports.LimitedStopShareIsFraction | src/rides_env/lssdp.py:367-372 | with non-negative flows the limited-stop share lies in `[0, 1]` |
| Reports.MakeReport | src/rides_env/lssdp.py:363-382 | the ttd summary, the load factors, and a share of 0 without a service; the share is non-finite (NaN, or ±inf for a non-zero limited-stop flow) exactly when the total flow is zero, and otherwise all four slots hold the limited-stop flow over the total |
| Reports.ShareSummary | src/rides_env/lssdp.py:381 | `calculate_stats([x])` of a share has `x` in every slot, and is missing when the share is not finite |
| LssdpSolution.New | src/rides_env/lssdp.py:333-341 | a one-bus service with no stops (invalid), with every figure at the baseline |
| LssdpSolution.NewSettled | src/rides_env/lssdp.py:333-341 | a new solution's figures are those the invalid branch produces |
| LssdpSolution.ServiceRequest | src/rides_env/lssdp.py:404-408 | all-stop then limited-stop alignments; each frequency times its trip time is its bus count, with the all-stop route given the fleet the service leaves; flow layout of `3*(n-1) + 3*(len(stops)-1)` |
| LssdpSolution.AllStopFrequencyNonPositive | src/rides_env/lssdp.py:405-406 | the all-stop frequency is zero or negative exactly when the service has taken the whole fleet |
| LssdpSolution.CalculateObjective | src/rides_env/lssdp.py:395-436 | recomputes from the service's request (none when invalid) and changes nothing else |
| LssdpSolution.Toggle | src/rides_env/lssdp.py:387-389 | flips one stop, keeps the bus count and a well-formed service, checkpoints the old objective, and leaves exactly the figures a recompute of the new service gives |
| LssdpSolution.AddBus | src/rides_env/lssdp.py:391-393 | one more limited-stop bus and one fewer all-stop bus, and exactly the figures a recompute of the new service gives |
| LssdpSolution.Terminate | src/rides_env/lssdp.py:384-385 | only the checkpoint moves |
| LssdpSolution.Capacities | src/rides_env/lssdp.py:344-361 | without a service, `3*(n-1)` entries of full-fleet capacity; with one, `3*(n-1)` all-stop entries then `3*(len(stops)-1)` limited-stop entries at each fleet's capacity |
| LssdpSolution.CapacitiesFollowRequest | src/rides_env/lssdp.py:344-361 | the capacity vector has the request's flow layout, and each entry is that route's frequency times trip time times capacity |
| LssdpSolution.Stats | src/rides_env/lssdp.py:363-382 | the ttd summary; NaN load factors when uncongested; a shape error exactly when flow and capacities do not broadcast; otherwise non-finite factors exactly when a capacity is zero, else the summary of flow over capacity; share 0 without a service, non-finite exactly when the total flow is zero, else the limited-stop flow over the total in every slot |
| LssdpSolution.ToggleTwiceRestores | src/rides_env/lssdp.py:387-389 | toggling a stop twice from a settled state restores the service, objective, ttd and ratio, and the flow when the service is valid |
| LssdpSolution.RunSettled | src/rides_env/lssdp.py:384-436 | every action leaves the figures consistent with the service it leaves, so a settled solution stays settled over any run |
| LssdpSolution.ReachableToggleTwiceRestores | src/rides_env/lssdp.py:333-393 | from a new solution and after any run, toggling a stop twice restores the service, objective, ttd and ratio, and the flow when the service is valid |
| LssdpSolution.Run | src/rides_env/lssdp.py:384-393 | any sequence of actions keeps the solution well formed and adds one limited-stop bus per `add_bus` |
| LssdpSolution.StaleFlowBreaksLoadFactors | src/rides_env/lssdp.py:396-402 | dropping a stop from a valid three-stop service leaves a flow six entries longer than the capacities, so congested `stats` cannot divide them |
| LssdpSolution.CalculateObjectiveResettingFlow | src/rides_env/lssdp.py:396-402 | the corrected recompute restores the baseline flow when the service is invalid and agrees with the original otherwise |
| LssdpSolution.ResettingFlowFitsCapacities | src/rides_env/lssdp.py:344-361 | with the corrected recompute, flow and capacities always have the same length, so the load factors are computable |
| SplitSolution.New | src/rides_env/solution.py:12-24 | all-stop service over every stop with all but one bus; a one-bus limited-stop service with no stops; figures at the baseline |
| SplitSolution.ServiceRequest | src/rides_env/solution.py:78-79 | both services' alignments, each at a frequency whose product with its trip time is its bus count |
| SplitSolution.CalculateObjective | src/rides_env/solution.py:69-107 | recomputes from the two services' request and changes nothing else |
| SplitSolution.Toggle | src/rides_env/solution.py:60-62 | flips one limited-stop stop, leaves the all-stop service untouched, and leaves exactly the figures a recompute of the new services gives |
| SplitSolution.AddBus | src/rides_env/solution.py:64-67 | one bus moves from the all-stop to the limited-stop service, the total is unchanged, and the figures are those a recompute of the new services gives |
| SplitSolution.Terminate | src/rides_env/solution.py:57-58 | only the checkpoint moves |
| SplitSolution.Capacities | src/rides_env/solution.py:26-34 | without a service, `3*(n-1)` entries at the original full load; with one, the all-stop then the limited-stop entries at each service's load (reading a service's `nstops` as the length of its stop list) |
| SplitSolution.Stats | src/rides_env/solution.py:36-55 | the same report as the other variant over the split capacities: NaN, shape error, non-finite or the summary of flow over capacity for the load factors, and the limited-stop share of the total flow (reading a service's `nstops` as the length of its stop list) |
| SplitSolution.Run | src/rides_env/solution.py:57-67 | any sequence of actions keeps the solution well formed |
| SplitSolution.RunMovesBuses | src/rides_env/solution.py:64-67 | each `add_bus` moves exactly one bus from the all-stop to the limited-stop service |
| SplitSolution.FleetConserved | src/rides_env/solution.py:12-24 | after any run from a new solution, the two services together run exactly the instance's fleet |
| Actions.BusesAdded | src/rides_env/lssdp.py:391-393 | the count of `add_bus` calls is zero exactly when no action adds a bus, and the length exactly when every action does |
| Actions.BusesAddedAppend | src/rides_env/lssdp.py:391-393 | the count over two runs in sequence is the sum of their counts |
| Variants.NewCorresponds | src/rides_env/solution.py:12-24 | the two constructors start in corresponding states |
| Variants.RequestsAgree | src/rides_env/solution.py:78-79 | corresponding solutions send the solver the same request, or none |
| Variants.CapacitiesAgree | src/rides_env/solution.py:26-34 | corresponding solutions have the same capacity vector (reading a service's `nstops` as the length of its stop list) |
| Variants.StatsAgree | src/rides_env/solution.py:36-55 | corresponding solutions report the same statistics (reading a service's `nstops` as the length of its stop list) |
| Variants.StepAgrees | src/rides_env/solution.py:57-67 | each action keeps corresponding solutions corresponding |
| Variants.RunsAgree | src/rides_env/solution.py:57-67 | any run of actions keeps corresponding solutions corresponding |
| Variants.FromNewAgree | src/rides_env/solution.py:12-24 | from the constructors, both variants reach the same objective, ttd, flow, service and statistics after any run (reading a service's `nstops` as the length of its stop list) |

## Left out

- `visualise`, `print_summary`, `calculate_id`, `__hash__` and the instance name: presentation, hashing and printing, with no effect on the environment's state.
- Route sampling (`network.sample_real_route`, lssdp.py:237-246): the sampled distance matrix is an input. The network module is not part of this model.
- The Gaussian demand peaks (lssdp.py:260-274): scipy's multivariate normal density is not modelled. The raw demand matrix, peaks included, is an input.
- The `nbuses` argument of `from_network`: the source never reads it; the bus count is always drawn.
- Random draws: `rng.integers` is modelled as `low + draw % (high - low + 1)`, and `rng.random()` as a parameter assumed in `[0, 1)`.
- The transit-assignment solvers (`tram`): not part of this model. They are an `Oracle` function parameter. Where a property needs it, the assumed shape of the answers is stated as a precondition: ttd has the baseline's shape, and the flow has three entries per leg of each route.
- float32 storage, rounding and NaN/infinity propagation: reals are exact. The NaN cases are separate constructors. `LoadFactors.NonFinite` covers any zero capacity as a whole, not per element.
- `entities.py` (`Service`, `StopSequence`, `AllStopService`, `LimitedStopService`) is not part of this model. The model assumes:
  - a service is valid with at least three stops and one bus;
  - `toggle` flips a stop in a sorted stop list;
  - `frequency` is buses over trip time;
  - `max_load` is buses times vehicle capacity;
  - a new `Service` / `LimitedStopService` has no stops;
  - an `AllStopService` runs over the stops `0 .. n-1` in order.
- Division by zero: the solution operations require a well-formed instance, meaning at least two stops, positive link times above the diagonal and a non-zero baseline cost. Generation requires at least two stops and positive speed, dwell time and headways; a one-stop route has trip time 0, and lssdp.py:305 and :314 divide by it. `Generation.FromNetworkWellFormed` shows a built instance is well formed exactly when the solver's baseline cost is non-zero, provided the solver returns an n-by-n time-to-destination matrix; both are assumptions about the solver, which is not part of this model.
- SplitSolution.Capacities: a service's `nstops` (solution.py:33 and :44) is read as the length of its stop list, as lssdp.py:359 reads `len(self._lss.stops)`. The attribute is defined in `entities.py`, which is not part of this model. If it were instead the stop count `n` passed to the constructor (solution.py:18), a valid limited-stop service that skips a stop would get `6*(n-1)` capacities against a flow of `3*(n-1) + 3*(len(stops)-1)` entries, so the load factors could not be computed and `Variants.CapacitiesAgree`, `Variants.StatsAgree` and the statistics part of `Variants.FromNewAgree` would not hold. For the all-stop service, which runs over every stop, both readings give `n`.
- SplitSolution.Capacities: `_oris.max_load` is taken to be the whole fleet times the vehicle capacity; `_oris` is defined outside the modelled files.
- The raised exceptions of numpy and Python are results (`Failure`, `None`, `ShapeMismatch`), not exceptions.

## Findings

| source | as written | input that shows it | evidently intended | confidence | as-written member | corrected member |
|---|---|---|---|---|---|---|
| src/rides_env/lssdp.py:396-402 | the invalid branch of `_calculate_objective` resets objective, ttd and ratio but keeps the last flow (also solution.py:70-76) | congested instance; a valid service with 3 stops is settled, then one of its stops is toggled off: the flow keeps `3*(n-1)+6` entries while `_capacities` has `3*(n-1)`, so `stats` cannot divide them | the flow returns to the baseline flow, like every other figure | not executed; medium | LssdpSolution.StaleFlowBreaksLoadFactors | LssdpSolution.ResettingFlowFitsCapacities |
| src/rides_env/lssdp.py:286-310 | `from_network` passes `max_iters` to the baseline solve but not to the instance, which keeps the default of 10000 | congested, `max_iters = 50`: the baseline is solved with 50 iterations and every later evaluation with 10000 | the instance stores the caller's `max_iters` | not executed; medium | Generation.IterationCapDiverges | Generation.KeptCapMatchesEvaluations |

=== FILE: actions.dfy ===
/** The mutations a caller (a search or learning agent) applies to a
    solution, one per decision. */
module Actions {

  datatype Action = ToggleStop(stop: nat) | AddOneBus | EndStep

  /** Every toggled stop exists in an instance of `n` stops. */
  predicate InRange(actions: seq<Action>, n: nat)
  {
    forall k :: 0 <= k < |actions| && actions[k].ToggleStop? ==> actions[k].stop < n
  }

  /** The number of `add_bus` calls among the actions: none exactly when no
      action adds a bus, all of them exactly when every action does. */
  function BusesAdded(actions: seq<Action>): (c: nat)
    ensures c <= |actions|
    ensures c == 0 <==> forall k :: 0 <= k < |actions| ==> !actions[k].AddOneBus?
    ensures c == |actions| <==> forall k :: 0 <= k < |actions| ==> actions[k].AddOneBus?
  {
    if |actions| == 0 then 0
    else
      assert forall k :: 1 <= k < |actions| ==> actions[k] == actions[1..][k - 1];
      (if actions[0].AddOneBus? then 1 else 0) + BusesAdded(actions[1..])
  }

  /** Counting distributes over running one batch of actions after another. */
  lemma {:induction false} BusesAddedAppend(a: seq<Action>, b: seq<Action>)
    ensures BusesAdded(a + b) == BusesAdded(a) + BusesAdded(b)
  {
    if |a| > 0 {
      BusesAddedAppend(a[1..], b);
      assert (a + b)[1..] == a[1..] + b;
    } else {
      assert a + b == b;
    }
  }
}

=== FILE: assignments.dfy ===
/** The interface of the external passenger-assignment solver. The solver
    itself is not modelled: it is an arbitrary function from a request to an
    assignment, passed to every operation that consults it. */
module Assignments {
  import opened Matrices

  /** Which solver the request goes to: the uncongested one, or the
      congested one with the vehicle capacity and an iteration cap. */
  datatype Congestion = Uncongested | Congested(capacity: real, maxIters: int)

  /** Competing routes (each a stop sequence) with their frequencies, over
      the instance's travel-time and demand matrices. */
  datatype Request = Request(
    alignments: seq<seq<nat>>,
    frequencies: seq<real>,
    travelTime: Matrix,
    demand: Matrix,
    congestion: Congestion)

  /** The solver's answer: time to destination per origin-destination pair,
      flow per route leg, and the total cost. */
  datatype Assignment = Assignment(ttd: Matrix, flow: seq<real>, cost: real)

  type Oracle = Request -> Assignment

  /** A route over `nstops` stops carries three flow entries per leg. */
  function Legs(nstops: int): int
  {
    3 * (nstops - 1)
  }

  /** The length of the flow vector for a list of routes laid out one after another. */
  function LayoutLength(alignments: seq<seq<nat>>): int
  {
    if |alignments| == 0 then 0 else Legs(|alignments[0]|) + LayoutLength(alignments[1..])
  }

  /** The solver returns an n-by-n time-to-destination matrix. */
  ghost predicate ShapesTtd(oracle: Oracle, n: nat)
  {
    forall req :: IsSquare(oracle(req).ttd, n)
  }

  /** The solver returns one flow entry per leg of the requested routes. */
  predicate LaysOutFlow(oracle: Oracle, req: Request)
  {
    |oracle(req).flow| == LayoutLength(req.alignments)
  }

  /** Python's `[x] * count`: `count` copies of `x`, none for a count below one. */
  function Repeat(x: real, count: int): (r: seq<real>)
    ensures |r| == if count < 0 then 0 else count
    ensures forall k :: 0 <= k < |r| ==> r[k] == x
  {
    if count <= 0 then [] else seq(count, _ => x)
  }
}

=== FILE: evaluations.dfy ===
/** The objective bookkeeping shared by both solution variants: the current
    and previous normalised objective, the latest time-to-destination and
    flow, and the time-to-destination relative to the baseline. */
module Evaluations {
  import opened Results
  import opened Matrices
  import opened Assignments
  import opened Instances

  datatype Evaluation = Evaluation(prevObj: real, obj: real, ttd: Matrix, flow: seq<real>, relTtd: Matrix)

  /** The state of a new solution: parity with the baseline. */
  function Fresh(inst: Instance): (e: Evaluation)
    ensures e.obj == 1.0 && e.prevObj == 1.0
    ensures e.ttd == inst.baseTtd && e.flow == inst.baseFlow
    ensures SameShape(e.relTtd, inst.baseTtd) && ZeroOnAndBelowDiagonal(e.relTtd)
    ensures forall i, j :: 0 <= i < j < |inst.baseTtd| && j < |inst.baseTtd[i]| ==> e.relTtd[i][j] == 1.0
  {
    Evaluation(1.0, 1.0, inst.baseTtd, inst.baseFlow, TriuOnesLike(inst.baseTtd))
  }

  /** `terminate`: checkpoints the objective and touches nothing else. */
  function Terminate(e: Evaluation): (r: Evaluation)
    ensures r.prevObj == e.obj
    ensures r.obj == e.obj && r.ttd == e.ttd && r.flow == e.flow && r.relTtd == e.relTtd
  {
    e.(prevObj := e.obj)
  }

  /** Checkpointing twice is checkpointing once, and leaves `prev_obj == obj`. */
  lemma TerminateIdempotent(e: Evaluation)
    ensures Terminate(Terminate(e)) == Terminate(e)
    ensures Terminate(e).prevObj == Terminate(e).obj
  {
  }

  /** `_calculate_objective`, given the request the limited-stop service makes,
      or `None` when the service is invalid. The previous objective is always
      the one before the call. Without a service the objective, the
      time-to-destination and its ratio return to the baseline while the
      flow keeps its last value; with one, the solver's cost is normalised by
      the baseline cost and the ratio is masked where the baseline is zero. */
  function Recompute(e: Evaluation, inst: Instance, req: Option<Request>, oracle: Oracle): (r: Evaluation)
    requires inst.baseObj != 0.0
    requires req.Some? ==> SameShape(oracle(req.value).ttd, inst.baseTtd)
    ensures r.prevObj == e.obj
    ensures req.None? ==>
      && r.obj == 1.0 && r.ttd == inst.baseTtd && r.flow == e.flow
      && SameShape(r.relTtd, inst.baseTtd) && ZeroOnAndBelowDiagonal(r.relTtd)
      && (forall i, j :: 0 <= i < j < |inst.baseTtd| && j < |inst.baseTtd[i]| ==> r.relTtd[i][j] == 1.0)
    ensures req.Some? ==>
      var out := oracle(req.value);
      && r.obj * inst.baseObj == out.cost
      && r.ttd == out.ttd && r.flow == out.flow
      && IsMaskedRatio(r.relTtd, r.ttd, inst.baseTtd)
  {
    match req
    case None =>
      Evaluation(e.obj, 1.0, inst.baseTtd, e.flow, TriuOnesLike(inst.baseTtd))
    case Some(q) =>
      var out := oracle(q);
      Evaluation(e.obj, out.cost / inst.baseObj, out.ttd, out.flow, MaskedRatio(out.ttd, inst.baseTtd))
  }

  /** The evaluation agrees with what `Recompute` produces for this request,
      apart from the checkpoint (and, without a service, the flow, which
      `Recompute` does not reset). */
  predicate Settled(e: Evaluation, inst: Instance, req: Option<Request>, oracle: Oracle)
    requires inst.baseObj != 0.0
    requires req.Some? ==> SameShape(oracle(req.value).ttd, inst.baseTtd)
  {
    match req
    case None =>
      e.obj == 1.0 && e.ttd == inst.baseTtd && e.relTtd == TriuOnesLike(inst.baseTtd)
    case Some(q) =>
      var out := oracle(q);
      && e.obj == out.cost / inst.baseObj && e.ttd == out.ttd && e.flow == out.flow
      && e.relTtd == MaskedRatio(out.ttd, inst.baseTtd)
  }

  /** A fresh solution is settled for an invalid service. */
  lemma FreshSettled(inst: Instance, oracle: Oracle)
    requires inst.baseObj != 0.0
    ensures Settled(Fresh(inst), inst, None, oracle)
  {
  }

  /** Every recompute leaves the evaluation settled for its request. */
  lemma RecomputeSettles(e: Evaluation, inst: Instance, req: Option<Request>, oracle: Oracle)
    requires inst.baseObj != 0.0
    requires req.Some? ==> SameShape(oracle(req.value).ttd, inst.baseTtd)
    ensures Settled(Recompute(e, inst, req, oracle), inst, req, oracle)
  {
    var r := Recompute(e, inst, req, oracle);
    if req.None? {
      assert r.relTtd == TriuOnesLike(inst.baseTtd);
    } else {
      var out := oracle(req.value);
      MaskedRatioUnique(r.relTtd, r.ttd, inst.baseTtd);
      assert r.obj == out.cost / inst.baseObj;
    }
  }

  /** Recomputing a settled evaluation for the same request reproduces its
      objective, time-to-destination and ratio, and also its flow when the
      service is valid. */
  lemma RecomputeSettledIsStable(e: Evaluation, x: Evaluation, inst: Instance, req: Option<Request>, oracle: Oracle)
    requires inst.baseObj != 0.0
    requires req.Some? ==> SameShape(oracle(req.value).ttd, inst.baseTtd)
    requires Settled(e, inst, req, oracle)
    ensures var r := Recompute(x, inst, req, oracle);
      && r.obj == e.obj && r.ttd == e.ttd && r.relTtd == e.relTtd
      && (req.Some? ==> r.flow == e.flow)
  {
  }

  /** The evidently intended invalid branch: as `Recompute`, except that the
      flow also returns to the baseline flow. */
  function RecomputeResettingFlow(e: Evaluation, inst: Instance, req: Option<Request>, oracle: Oracle): (r: Evaluation)
    requires inst.baseObj != 0.0
    requires req.Some? ==> SameShape(oracle(req.value).ttd, inst.baseTtd)
    ensures r.prevObj == e.obj
    ensures req.None? ==> r.obj == 1.0 && r.ttd == inst.baseTtd && r.flow == inst.baseFlow
    ensures req.Some? ==> r == Recompute(e, inst, req, oracle)
    ensures Settled(r, inst, req, oracle)
  {
    RecomputeSettles(e, inst, req, oracle);
    var r := Recompute(e, inst, req, oracle);
    if req.None? then r.(flow := inst.baseFlow) else r
  }
}

=== FILE: generation.dfy ===
/** `LSSDPInstance.from_network`: turning a sampled route into a random
    instance. Every random draw is a parameter: `busDraw` picks the bus count
    from its range, `raw` is the demand matrix before masking (uniform noise
    plus any demand peaks), and `scaleDraw` is the uniform factor in [0, 1)
    that scales demand. */
module Generation {
  import opened Results
  import opened Matrices
  import opened Routes
  import opened Assignments
  import opened Instances
  import RealSeqs

  datatype GenError =
    | EmptyBusRange  // numpy's `integers(low, high)` raises when low >= high
    | ZeroDemand     // the peak of the upper triangle (zero diagonal included) is zero, so no
                     // upper entry is positive: normalising divides by zero (NaN or -inf)

  function Floor(x: real): int
  {
    x.Floor
  }

  function Ceil(x: real): int
  {
    -((-x).Floor)
  }

  /** `np.triu(distance / speed / 1000 * 60 + dwell_time, 1)`: metres at
      `speed` km/h become minutes, plus the dwell time at the stop. */
  function TravelTimes(distance: Matrix, speed: real, dwell: real): (tt: Matrix)
    requires speed > 0.0
    ensures SameShape(tt, distance)
    ensures ZeroOnAndBelowDiagonal(tt)
    ensures forall i, j :: 0 <= i < j < |distance| && j < |distance[i]| ==>
      tt[i][j] == distance[i][j] / speed / 1000.0 * 60.0 + dwell
  {
    Triu(seq(|distance|, i requires 0 <= i < |distance| =>
      seq(|distance[i]|, j requires 0 <= j < |distance[i]| => distance[i][j] / speed / 1000.0 * 60.0 + dwell)))
  }

  /** Non-negative distances give link times of at least the dwell time above
      the diagonal. */
  lemma TravelTimesAtLeastDwell(distance: Matrix, speed: real, dwell: real)
    requires speed > 0.0
    requires forall i, j :: 0 <= i < |distance| && 0 <= j < |distance[i]| ==> distance[i][j] >= 0.0
    ensures var tt := TravelTimes(distance, speed, dwell);
      forall i, j :: 0 <= i < j < |tt| && j < |tt[i]| ==> tt[i][j] >= dwell
  {
    var tt := TravelTimes(distance, speed, dwell);
    forall i, j | 0 <= i < j < |tt| && j < |tt[i]|
      ensures tt[i][j] >= dwell
    {
      var d := distance[i][j];
      assert d / speed >= 0.0;
      assert d / speed / 1000.0 * 60.0 >= 0.0;
    }
  }

  /** The integer range `[ceil(T/max_headway), floor(T/min_headway)]` the bus
      count is drawn from. */
  function BusRangeLow(tripTime: real, maxHeadway: real): int
    requires maxHeadway > 0.0
  {
    Ceil(tripTime / maxHeadway)
  }

  function BusRangeHigh(tripTime: real, minHeadway: real): int
    requires minHeadway > 0.0
  {
    Floor(tripTime / minHeadway)
  }

  /** `rng.integers(ceil(T/max_h), high=floor(T/min_h) + 1)`: the draw fails
      exactly when the range is empty and otherwise lands inside it. */
  function DrawBuses(tripTime: real, minHeadway: real, maxHeadway: real, busDraw: nat): (r: Result<int, GenError>)
    requires minHeadway > 0.0 && maxHeadway > 0.0
    ensures r.Failure? <==> BusRangeLow(tripTime, maxHeadway) > BusRangeHigh(tripTime, minHeadway)
    ensures r.Failure? ==> r.error == EmptyBusRange
    ensures r.Success? ==> BusRangeLow(tripTime, maxHeadway) <= r.value <= BusRangeHigh(tripTime, minHeadway)
  {
    var low := BusRangeLow(tripTime, maxHeadway);
    var high := BusRangeHigh(tripTime, minHeadway) + 1;
    if low >= high then Failure(EmptyBusRange) else Success(low + busDraw % (high - low))
  }

  /** Every bus count in the range is drawn by some draw. */
  lemma DrawReachesEveryCount(tripTime: real, minHeadway: real, maxHeadway: real, v: int)
    requires minHeadway > 0.0 && maxHeadway > 0.0
    requires BusRangeLow(tripTime, maxHeadway) <= v <= BusRangeHigh(tripTime, minHeadway)
    ensures DrawBuses(tripTime, minHeadway, maxHeadway, v - BusRangeLow(tripTime, maxHeadway)) == Success(v)
  {
  }

  /** The range holds exactly the bus counts whose headway `T / v` lies
      within `[min_headway, max_headway]`. */
  lemma BusRangeIsFeasibleHeadways(tripTime: real, minHeadway: real, maxHeadway: real, v: int)
    requires tripTime > 0.0 && minHeadway > 0.0 && maxHeadway > 0.0
    requires v >= 1
    ensures BusRangeLow(tripTime, maxHeadway) <= v <= BusRangeHigh(tripTime, minHeadway)
      <==> minHeadway <= tripTime / (v as real) <= maxHeadway
  {
    var x := v as real;
    CeilAtMost(tripTime / maxHeadway, v);
    FloorAtLeast(tripTime / minHeadway, v);
    assert tripTime / maxHeadway <= x <==> tripTime / x <= maxHeadway by {
      QuotientOrder(tripTime, maxHeadway, x);
    }
    assert x <= tripTime / minHeadway <==> minHeadway <= tripTime / x by {
      QuotientOrder(tripTime, x, minHeadway);
    }
  }

  /** `ceil(x) <= k` exactly when `x <= k`. */
  lemma CeilAtMost(x: real, k: int)
    ensures Ceil(x) <= k <==> x <= k as real
  {
    FloorAtLeast(-x, -k);
  }

  /** `k <= floor(x)` exactly when `k <= x`. */
  lemma FloorAtLeast(x: real, k: int)
    ensures k <= Floor(x) <==> k as real <= x
  {
  }

  /** For positive a, b: `t / a <= b` exactly when `t / b <= a`, both saying `t <= a * b`. */
  lemma QuotientOrder(t: real, a: real, b: real)
    requires a > 0.0 && b > 0.0
    ensures t / a <= b <==> t / b <= a
    ensures b <= t / a <==> a <= t / b
  {
    assert t == (t / a) * a;
    assert t == (t / b) * b;
    assert t / a <= b <==> t <= a * b;
    assert t / b <= a <==> t <= a * b;
    assert b <= t / a <==> a * b <= t;
    assert a <= t / b <==> a * b <= t;
  }

  /** Every count in a non-empty range is at least one when the trip takes time. */
  lemma BusRangePositive(tripTime: real, maxHeadway: real)
    requires tripTime > 0.0 && maxHeadway > 0.0
    ensures BusRangeLow(tripTime, maxHeadway) >= 1
  {
  }

  /** Nothing guards the range: with a 10-minute trip and headways between
      3.5 and 4.5 minutes no integer bus count fits and the draw fails. */
  lemma EmptyBusRangeExample(busDraw: nat)
    ensures BusRangeLow(10.0, 4.5) == 3 && BusRangeHigh(10.0, 3.5) == 2
    ensures DrawBuses(10.0, 3.5, 4.5, busDraw) == Failure(EmptyBusRange)
  {
    assert 10.0 / 4.5 == 20.0 / 9.0;
    assert 10.0 / 3.5 == 20.0 / 7.0;
  }

  /** `np.max(np.triu(raw, 1))`: the largest entry of the masked matrix. Its
      zero diagonal makes it non-negative; it bounds every upper entry and,
      unless it is zero, is one of them. */
  function Peak(raw: Matrix, n: nat): (p: real)
    requires n >= 1 && IsSquare(raw, n)
    ensures p >= 0.0
    ensures forall i, j :: 0 <= i < j < n ==> raw[i][j] <= p
    ensures p != 0.0 ==> exists i, j :: 0 <= i < j < n && raw[i][j] == p
  {
    PeakBounds(raw, n);
    RealSeqs.Max(Flatten(Triu(raw)))
  }

  lemma PeakBounds(raw: Matrix, n: nat)
    requires n >= 1 && IsSquare(raw, n)
    ensures var p := RealSeqs.Max(Flatten(Triu(raw)));
      && p >= 0.0
      && (forall i, j :: 0 <= i < j < n ==> raw[i][j] <= p)
      && (p != 0.0 ==> exists i, j :: 0 <= i < j < n && raw[i][j] == p)
  {
    var upper := Triu(raw);
    var flat := Flatten(upper);
    assert upper[0][0] in flat;
    var p := RealSeqs.Max(flat);
    assert p >= 0.0 by {
      var k :| 0 <= k < |flat| && flat[k] == upper[0][0];
    }
    forall i, j | 0 <= i < j < n
      ensures raw[i][j] <= p
    {
      assert upper[i][j] in flat;
      var k :| 0 <= k < |flat| && flat[k] == upper[i][j];
    }
    if p != 0.0 {
      var i, j :| 0 <= i < |upper| && 0 <= j < |upper[i]| && upper[i][j] == p;
      assert i < j;
    }
  }

  /** `demand = np.triu(raw, 1); demand /= np.max(demand)`; the division
      yields NaN when the peak is zero. */
  function Normalise(raw: Matrix, n: nat): (r: Result<Matrix, GenError>)
    requires n >= 1 && IsSquare(raw, n)
    ensures r.Failure? <==> Peak(raw, n) == 0.0
    ensures r.Failure? ==> r.error == ZeroDemand
    ensures r.Success? ==> IsSquare(r.value, n) && ZeroOnAndBelowDiagonal(r.value)
    ensures r.Success? ==> forall i, j :: 0 <= i < j < n ==> r.value[i][j] == raw[i][j] / Peak(raw, n)
  {
    var peak := Peak(raw, n);
    if peak == 0.0 then Failure(ZeroDemand)
    else
      var upper := Triu(raw);
      assert IsSquare(upper, n);
      Success(DivideBy(upper, n, peak))
  }

  /** `m / p` elementwise; a zero lower triangle stays zero. */
  function DivideBy(m: Matrix, n: nat, p: real): (r: Matrix)
    requires IsSquare(m, n) && p != 0.0
    ensures IsSquare(r, n)
    ensures forall i, j :: 0 <= i < n && 0 <= j < n ==> r[i][j] == m[i][j] / p
    ensures ZeroOnAndBelowDiagonal(m) ==> ZeroOnAndBelowDiagonal(r)
  {
    seq(n, i requires 0 <= i < n => seq(n, j requires 0 <= j < n => m[i][j] / p))
  }

  /** With non-negative raw demand the normalised matrix lies in [0, 1] and
      reaches 1 at some origin-destination pair. */
  lemma NormaliseUnitPeak(raw: Matrix, n: nat)
    requires n >= 1 && IsSquare(raw, n)
    requires forall i, j :: 0 <= i < n && 0 <= j < n ==> raw[i][j] >= 0.0
    requires Normalise(raw, n).Success?
    ensures var d := Normalise(raw, n).value;
      && (forall i, j :: 0 <= i < n && 0 <= j < n ==> 0.0 <= d[i][j] <= 1.0)
      && (exists i, j :: 0 <= i < j < n && d[i][j] == 1.0)
  {
    var peak := Peak(raw, n);
    var d := Normalise(raw, n).value;
    forall i, j | 0 <= i < n && 0 <= j < n
      ensures 0.0 <= d[i][j] <= 1.0
    {
      if i < j {
        UnitQuotient(raw[i][j], peak, d[i][j]);
      }
    }
    var i, j :| 0 <= i < j < n && raw[i][j] == peak;
    UnitQuotient(raw[i][j], peak, d[i][j]);
  }

  lemma UnitQuotient(x: real, peak: real, q: real)
    requires 0.0 <= x <= peak && peak > 0.0
    requires q == x / peak
    ensures 0.0 <= q <= 1.0
    ensures x == peak ==> q == 1.0
  {
    assert q * peak == x;
    assert (q - 1.0) * peak == x - peak;
  }

  /** `demand *= u * capacity * max_od_demand / (n + 1 - i)` for origin row i. */
  function ScaleRows(demand: Matrix, n: nat, factor: real): (r: Matrix)
    requires IsSquare(demand, n)
    ensures IsSquare(r, n)
    ensures ZeroOnAndBelowDiagonal(demand) ==> ZeroOnAndBelowDiagonal(r)
    ensures forall i, j :: 0 <= i < n && 0 <= j < n ==> r[i][j] == demand[i][j] * (factor / ((n + 1 - i) as real))
  {
    seq(n, i requires 0 <= i < n => seq(n, j requires 0 <= j < n => demand[i][j] * (factor / ((n + 1 - i) as real))))
  }

  /** Scaling keeps the lower triangle zero, and with entries in [0, 1] every
      scaled entry lies in [0, factor / (n + 1 - i)]; since an origin with a
      later destination has i <= n - 2, no entry exceeds factor / 3. */
  lemma ScaledDemandBounds(demand: Matrix, n: nat, factor: real)
    requires IsSquare(demand, n) && ZeroOnAndBelowDiagonal(demand)
    requires forall i, j :: 0 <= i < n && 0 <= j < n ==> 0.0 <= demand[i][j] <= 1.0
    requires factor >= 0.0
    ensures ZeroOnAndBelowDiagonal(ScaleRows(demand, n, factor))
    ensures forall i, j :: 0 <= i < n && 0 <= j < n ==>
      0.0 <= ScaleRows(demand, n, factor)[i][j] <= factor / ((n + 1 - i) as real)
    ensures forall i, j :: 0 <= i < n && 0 <= j < n ==> ScaleRows(demand, n, factor)[i][j] <= factor / 3.0
  {
    var r := ScaleRows(demand, n, factor);
    forall i, j | 0 <= i < n && 0 <= j < n
      ensures 0.0 <= r[i][j] <= factor / ((n + 1 - i) as real)
      ensures r[i][j] <= factor / 3.0
    {
      var d := (n + 1 - i) as real;
      var x := demand[i][j];
      ShareBound(x, factor, d);
      assert x * (factor / d) <= factor / d;
      assert r[i][j] == x * (factor / d);
      assert 0.0 <= r[i][j] <= factor / d;
      if j <= i {
        ShareBound(0.0, factor, 3.0);
      } else {
        assert d >= 3.0;
      }
    }
  }

  /** A fraction x in [0, 1] of `factor / d` lies in `[0, factor / d]`,
      and a larger divisor gives a smaller share. */
  lemma ShareBound(x: real, factor: real, d: real)
    requires 0.0 <= x <= 1.0 && factor >= 0.0 && d >= 1.0
    ensures 0.0 <= factor / d
    ensures 0.0 <= x * (factor / d) <= factor / d
    ensures d >= 3.0 ==> factor / d <= factor / 3.0
  {
    var w := factor / d;
    assert w * d == factor;
    assert w >= 0.0;
    assert x * w <= 1.0 * w;
    if d >= 3.0 {
      assert w * 3.0 <= w * d;
    }
  }

  /** The preconditions of instance synthesis: a sampled route of at least
      two stops with non-negative distances, positive speed, dwell time and
      headway bounds, and a raw demand matrix of the same size. */
  predicate Sampled(distance: Matrix, raw: Matrix, speed: real, dwell: real, minHeadway: real, maxHeadway: real)
  {
    && |distance| >= 2 && IsSquare(distance, |distance|) && IsSquare(raw, |distance|)
    && speed > 0.0 && dwell > 0.0 && minHeadway > 0.0 && maxHeadway > 0.0
    && forall i, j :: 0 <= i < |distance| && 0 <= j < |distance| ==> distance[i][j] >= 0.0
  }

  /** What every synthesised instance satisfies before and after its
      baseline is filled in. */
  predicate Synthesised(inst: Instance, n: nat, dwell: real, minHeadway: real, maxHeadway: real)
  {
    && NStops(inst) == n && n >= 2
    && IsSquare(inst.travelTime, n) && IsSquare(inst.demand, n)
    && ZeroOnAndBelowDiagonal(inst.travelTime) && ZeroOnAndBelowDiagonal(inst.demand)
    && (forall i, j :: 0 <= i < j < n ==> inst.travelTime[i][j] >= dwell)
    && AllStopTripTime(inst) > 0.0
    && inst.nbuses >= 1
    && minHeadway <= AllStopTripTime(inst) / (inst.nbuses as real) <= maxHeadway
  }

  /** Steps 1 to 6 of `from_network`: the travel times, the bus count and the
      demand, with the baseline still empty. The instance is built without
      the caller's iteration cap, so it keeps the constructor's default. */
  function Draft(
    distance: Matrix, speed: real, dwell: real, minHeadway: real, maxHeadway: real, busDraw: nat,
    raw: Matrix, scaleDraw: real, congested: bool, capacity: real, maxOdDemand: real): (r: Result<Instance, GenError>)
    requires Sampled(distance, raw, speed, dwell, minHeadway, maxHeadway)
    ensures var tripTime := TripTime(TravelTimes(distance, speed, dwell), AllStops(|distance|));
      r.Failure? <==>
        BusRangeLow(tripTime, maxHeadway) > BusRangeHigh(tripTime, minHeadway) || Peak(raw, |distance|) == 0.0
    ensures r.Success? ==> Synthesised(r.value, |distance|, dwell, minHeadway, maxHeadway)
    ensures r.Success? ==> r.value.congested == congested && r.value.capacity == capacity
    ensures r.Success? ==> r.value.maxIters == DefaultMaxIters
    ensures r.Success? ==> r.value.travelTime == TravelTimes(distance, speed, dwell)
    ensures r.Success? ==>
      var tripTime := TripTime(TravelTimes(distance, speed, dwell), AllStops(|distance|));
      r.value.nbuses == DrawBuses(tripTime, minHeadway, maxHeadway, busDraw).value
    ensures r.Success? ==> r.value.demand == Demand(raw, |distance|, scaleDraw * capacity * maxOdDemand).value
    ensures r.Success? && NonNegative(raw) && 0.0 <= scaleDraw < 1.0 && capacity >= 0.0 && maxOdDemand >= 0.0 ==>
      forall i, j :: 0 <= i < |distance| && 0 <= j < |distance| ==>
        0.0 <= r.value.demand[i][j] <= scaleDraw * capacity * maxOdDemand / 3.0
  {
    var n := |distance|;
    var tt := TravelTimes(distance, speed, dwell);
    var tripTime := TripTime(tt, AllStops(n));
    var nbuses :- DrawBuses(tripTime, minHeadway, maxHeadway, busDraw);
    var factor := scaleDraw * capacity * maxOdDemand;
    ProductNonNegative(scaleDraw, capacity, maxOdDemand);
    var demand :- Demand(raw, n, factor);
    var inst := Instance(tt, demand, nbuses, capacity, congested, [], [], 0.0, DefaultMaxIters);
    DraftSynthesised(inst, distance, speed, dwell, minHeadway, maxHeadway);
    Success(inst)
  }

  /** The travel times, a bus count from the feasible range and a triangular
      demand make a synthesised instance. */
  lemma DraftSynthesised(inst: Instance, distance: Matrix, speed: real, dwell: real, minHeadway: real, maxHeadway: real)
    requires Sampled(distance, inst.demand, speed, dwell, minHeadway, maxHeadway)
    requires inst.travelTime == TravelTimes(distance, speed, dwell)
    requires ZeroOnAndBelowDiagonal(inst.demand)
    requires var t := TripTime(inst.travelTime, AllStops(|distance|));
      BusRangeLow(t, maxHeadway) <= inst.nbuses <= BusRangeHigh(t, minHeadway)
    ensures Synthesised(inst, |distance|, dwell, minHeadway, maxHeadway)
  {
    TravelTimesAtLeastDwell(distance, speed, dwell);
    var t := AllStopTripTime(inst);
    AllStopTripTimePositive(inst);
    BusRangePositive(t, maxHeadway);
    BusRangeIsFeasibleHeadways(t, minHeadway, maxHeadway, inst.nbuses);
  }

  /** Steps 5 and 6 of `from_network`: the demand normalised to its peak and
      scaled row by row; it fails where the peak is zero. */
  function Demand(raw: Matrix, n: nat, factor: real): (r: Result<Matrix, GenError>)
    requires n >= 1 && IsSquare(raw, n)
    ensures r.Failure? <==> Peak(raw, n) == 0.0
    ensures r.Success? ==> Normalise(raw, n).Success? && r.value == ScaleRows(Normalise(raw, n).value, n, factor)
    ensures r.Success? ==> IsSquare(r.value, n) && ZeroOnAndBelowDiagonal(r.value)
    ensures r.Success? && NonNegative(raw) && factor >= 0.0 ==>
      forall i, j :: 0 <= i < n && 0 <= j < n ==> 0.0 <= r.value[i][j] <= factor / 3.0
  {
    if Peak(raw, n) == 0.0 then Failure(ZeroDemand)
    else
      DemandWithinBounds(raw, n, factor);
      Success(ScaleRows(Normalise(raw, n).value, n, factor))
  }

  lemma ProductNonNegative(a: real, b: real, c: real)
    ensures 0.0 <= a && 0.0 <= b && 0.0 <= c ==> 0.0 <= a * b * c
  {
    if 0.0 <= a && 0.0 <= b && 0.0 <= c {
      assert 0.0 <= a * b;
    }
  }

  /** Step 7: the baseline is whatever the solver returns for the whole fleet
      on the all-stop route, asked with the caller's iteration cap rather
      than the instance's; nothing else changes. */
  function WithBaseline(inst: Instance, maxIters: int, oracle: Oracle): (r: Instance)
    requires IsSquare(inst.travelTime, NStops(inst)) && AllStopTripTime(inst) != 0.0
    ensures r.travelTime == inst.travelTime && r.demand == inst.demand && r.nbuses == inst.nbuses
    ensures r.capacity == inst.capacity && r.congested == inst.congested && r.maxIters == inst.maxIters
    ensures BaselineRequest(r) == BaselineRequest(inst)
    ensures var out := oracle(BaselineRequest(inst.(maxIters := maxIters)));
      r.baseTtd == out.ttd && r.baseFlow == out.flow && r.baseObj == out.cost
  {
    var out := oracle(BaselineRequest(inst.(maxIters := maxIters)));
    BaselineRequestIgnoresBaseline(inst, out.ttd, out.flow, out.cost);
    inst.(baseTtd := out.ttd, baseFlow := out.flow, baseObj := out.cost)
  }

  /** `LSSDPInstance.from_network` from a sampled distance matrix. It fails
      where the source raises (an empty bus-count range, checked first) or
      produces NaN demand; otherwise the instance has upper-triangular
      travel-time and demand matrices, a bus count whose headway lies within
      the bounds, the default iteration cap, and the baseline the solver
      returns for the whole fleet on the all-stop route, asked of the
      congested solver exactly when the instance is congested and with the
      caller's iteration cap. */
  function FromNetwork(
    distance: Matrix, speed: real, dwell: real, minHeadway: real, maxHeadway: real, busDraw: nat,
    raw: Matrix, scaleDraw: real, congested: bool, capacity: real, maxOdDemand: real, maxIters: int,
    oracle: Oracle): (r: Result<Instance, GenError>)
    requires Sampled(distance, raw, speed, dwell, minHeadway, maxHeadway)
    ensures var tripTime := TripTime(TravelTimes(distance, speed, dwell), AllStops(|distance|));
      r.Failure? <==>
        BusRangeLow(tripTime, maxHeadway) > BusRangeHigh(tripTime, minHeadway) || Peak(raw, |distance|) == 0.0
    ensures r.Success? ==> Synthesised(r.value, |distance|, dwell, minHeadway, maxHeadway)
    ensures r.Success? ==> r.value.congested == congested && r.value.capacity == capacity
    ensures r.Success? ==> r.value.maxIters == DefaultMaxIters
    ensures r.Success? ==> r.value.travelTime == TravelTimes(distance, speed, dwell)
    ensures r.Success? ==>
      var tripTime := TripTime(TravelTimes(distance, speed, dwell), AllStops(|distance|));
      r.value.nbuses == DrawBuses(tripTime, minHeadway, maxHeadway, busDraw).value
    ensures r.Success? ==> r.value.demand == Demand(raw, |distance|, scaleDraw * capacity * maxOdDemand).value
    ensures r.Success? ==> (BaselineRequest(r.value).congestion.Congested? <==> congested)
    ensures r.Success? ==>
      var out := oracle(BaselineRequest(r.value.(maxIters := maxIters)));
      r.value.baseTtd == out.ttd && r.value.baseFlow == out.flow && r.value.baseObj == out.cost
  {
    var inst :- Draft(distance, speed, dwell, minHeadway, maxHeadway, busDraw, raw, scaleDraw,
                      congested, capacity, maxOdDemand);
    var filled := WithBaseline(inst, maxIters, oracle);
    BaselineRequestIgnoresBaseline(inst.(maxIters := maxIters), filled.baseTtd, filled.baseFlow, filled.baseObj);
    assert filled.(maxIters := maxIters) == inst.(maxIters := maxIters).(baseTtd := filled.baseTtd, baseFlow := filled.baseFlow, baseObj := filled.baseObj);
    Success(filled)
  }

  /** `from_network` yields an instance the solution layer accepts exactly
      when the solver's baseline cost is non-zero, provided the solver
      returns an n-by-n time-to-destination matrix. */
  lemma FromNetworkWellFormed(
    distance: Matrix, speed: real, dwell: real, minHeadway: real, maxHeadway: real, busDraw: nat,
    raw: Matrix, scaleDraw: real, congested: bool, capacity: real, maxOdDemand: real, maxIters: int,
    oracle: Oracle)
    requires Sampled(distance, raw, speed, dwell, minHeadway, maxHeadway)
    requires ShapesTtd(oracle, |distance|)
    ensures var r := FromNetwork(distance, speed, dwell, minHeadway, maxHeadway, busDraw, raw, scaleDraw,
                                 congested, capacity, maxOdDemand, maxIters, oracle);
      r.Success? ==> (Instances.WellFormed(r.value) <==> r.value.baseObj != 0.0)
  {
    var r := FromNetwork(distance, speed, dwell, minHeadway, maxHeadway, busDraw, raw, scaleDraw,
                         congested, capacity, maxOdDemand, maxIters, oracle);
    if r.Success? {
      var inst := r.value;
      var n := |distance|;
      assert IsSquare(inst.baseTtd, n);
      forall i, j | 0 <= i < j < n
        ensures inst.travelTime[i][j] > 0.0
      {
        assert inst.travelTime[i][j] >= dwell;
      }
    }
  }

  /** For a congested instance and any cap other than the default, the
      baseline objective is measured with a different iteration cap from
      every later evaluation, which asks with the instance's own cap. */
  lemma IterationCapDiverges(
    distance: Matrix, speed: real, dwell: real, minHeadway: real, maxHeadway: real, busDraw: nat,
    raw: Matrix, scaleDraw: real, capacity: real, maxOdDemand: real, maxIters: int,
    oracle: Oracle)
    requires Sampled(distance, raw, speed, dwell, minHeadway, maxHeadway)
    requires maxIters != DefaultMaxIters
    ensures var r := FromNetwork(distance, speed, dwell, minHeadway, maxHeadway, busDraw, raw, scaleDraw,
                                 true, capacity, maxOdDemand, maxIters, oracle);
      r.Success? ==>
        && BaselineRequest(r.value.(maxIters := maxIters)).congestion == Congested(capacity, maxIters)
        && CongestionOf(r.value) == Congested(capacity, DefaultMaxIters)
        && BaselineRequest(r.value.(maxIters := maxIters)) != BaselineRequest(r.value)
  {
    var r := FromNetwork(distance, speed, dwell, minHeadway, maxHeadway, busDraw, raw, scaleDraw,
                         true, capacity, maxOdDemand, maxIters, oracle);
    if r.Success? {
      var inst := r.value;
      assert BaselineRequest(inst.(maxIters := maxIters)).congestion != BaselineRequest(inst).congestion;
    }
  }

  /** `from_network` with the evidently intended instance, which keeps the
      caller's iteration cap. */
  function FromNetworkKeepingIters(
    distance: Matrix, speed: real, dwell: real, minHeadway: real, maxHeadway: real, busDraw: nat,
    raw: Matrix, scaleDraw: real, congested: bool, capacity: real, maxOdDemand: real, maxIters: int,
    oracle: Oracle): (r: Result<Instance, GenError>)
    requires Sampled(distance, raw, speed, dwell, minHeadway, maxHeadway)
    ensures r.Success? <==> FromNetwork(distance, speed, dwell, minHeadway, maxHeadway, busDraw, raw, scaleDraw,
                                        congested, capacity, maxOdDemand, maxIters, oracle).Success?
    ensures r.Success? ==> r.value.maxIters == maxIters && r.value.congested == congested
    ensures r.Success? ==> Synthesised(r.value, |distance|, dwell, minHeadway, maxHeadway)
    ensures r.Success? ==>
      var out := oracle(BaselineRequest(r.value));
      r.value.baseTtd == out.ttd && r.value.baseFlow == out.flow && r.value.baseObj == out.cost
  {
    var inst :- FromNetwork(distance, speed, dwell, minHeadway, maxHeadway, busDraw, raw, scaleDraw,
                            congested, capacity, maxOdDemand, maxIters, oracle);
    var kept := inst.(maxIters := maxIters);
    assert NStops(kept) == NStops(inst);
    assert AllStopTripTime(kept) == AllStopTripTime(inst);
    Success(kept)
  }

  /** With the cap kept, the baseline is the answer to exactly the request
      the instance itself makes for the whole fleet, so the baseline and
      every later evaluation are asked with the same solver settings. A
      corollary of `FromNetworkKeepingIters`, stated as the corrected
      counterpart of `IterationCapDiverges`. */
  lemma KeptCapMatchesEvaluations(
    distance: Matrix, speed: real, dwell: real, minHeadway: real, maxHeadway: real, busDraw: nat,
    raw: Matrix, scaleDraw: real, congested: bool, capacity: real, maxOdDemand: real, maxIters: int,
    oracle: Oracle)
    requires Sampled(distance, raw, speed, dwell, minHeadway, maxHeadway)
    ensures var r := FromNetworkKeepingIters(distance, speed, dwell, minHeadway, maxHeadway, busDraw, raw, scaleDraw,
                                             congested, capacity, maxOdDemand, maxIters, oracle);
      r.Success? ==>
        && BaselineRequest(r.value).congestion == CongestionOf(r.value)
        && (congested ==> CongestionOf(r.value) == Congested(capacity, maxIters))
        && r.value.baseObj == oracle(BaselineRequest(r.value)).cost
  {
  }

  /** With non-negative raw demand and a non-negative factor, the
      normalised and scaled demand lies in `[0, factor / 3]`. */
  lemma DemandWithinBounds(raw: Matrix, n: nat, factor: real)
    requires n >= 1 && IsSquare(raw, n)
    requires Normalise(raw, n).Success?
    ensures var d := ScaleRows(Normalise(raw, n).value, n, factor);
      NonNegative(raw) && factor >= 0.0 ==>
        forall i, j :: 0 <= i < n && 0 <= j < n ==> 0.0 <= d[i][j] <= factor / 3.0
  {
    if NonNegative(raw) && factor >= 0.0 {
      NormaliseUnitPeak(raw, n);
      ScaledDemandBounds(Normalise(raw, n).value, n, factor);
    }
  }
}

=== FILE: instances.dfy ===
/** `LSSDPInstance`: the problem data of one bus line together with the
    baseline assignment of the whole fleet to the all-stop route. */
module Instances {
  import opened Matrices
  import opened Routes
  import opened Assignments

  datatype Instance = Instance(
    travelTime: Matrix,
    demand: Matrix,
    nbuses: int,
    capacity: real,
    congested: bool,
    baseTtd: Matrix,
    baseFlow: seq<real>,
    baseObj: real,
    maxIters: int)

  /** The iteration cap an instance gets when its constructor is not told one. */
  const DefaultMaxIters: int := 10000

  function NStops(inst: Instance): nat
  {
    |inst.travelTime|
  }

  /** The shape the solution layer relies on: square matrices over at least
      two stops, positive link times (so every frequency is defined), a
      baseline time-to-destination of the same shape, and a non-zero baseline
      objective to normalise by. */
  predicate WellFormed(inst: Instance)
  {
    var n := NStops(inst);
    && n >= 2
    && IsSquare(inst.travelTime, n)
    && IsSquare(inst.demand, n)
    && PositiveAboveDiagonal(inst.travelTime)
    && IsSquare(inst.baseTtd, n)
    && inst.baseObj != 0.0
  }

  /** `ass_trip_time`: the running time of the all-stop route. */
  function AllStopTripTime(inst: Instance): real
    requires IsSquare(inst.travelTime, NStops(inst))
  {
    TripTime(inst.travelTime, AllStops(NStops(inst)))
  }

  /** Over at least two stops with positive link times the all-stop trip
      takes time, so the all-stop frequency is defined. */
  lemma AllStopTripTimePositive(inst: Instance)
    requires NStops(inst) >= 2 && IsSquare(inst.travelTime, NStops(inst))
    requires PositiveAboveDiagonal(inst.travelTime)
    ensures AllStopTripTime(inst) > 0.0
  {
    var stops := AllStops(NStops(inst));
    assert StrictlyIncreasing(stops);
    TripTimePositive(inst.travelTime, stops);
  }

  /** The solver the instance asks: congested (with capacity and iteration
      cap) exactly when the instance is congested. */
  function CongestionOf(inst: Instance): (c: Congestion)
    ensures c.Congested? <==> inst.congested
    ensures c.Congested? ==> c.capacity == inst.capacity && c.maxIters == inst.maxIters
  {
    if inst.congested then Congested(inst.capacity, inst.maxIters) else Uncongested
  }

  /** The baseline request: the whole fleet on the all-stop route. */
  function BaselineRequest(inst: Instance): (req: Request)
    requires IsSquare(inst.travelTime, NStops(inst))
    requires AllStopTripTime(inst) != 0.0
    ensures req.alignments == [AllStops(NStops(inst))]
    ensures |req.frequencies| == 1
    ensures req.frequencies[0] * AllStopTripTime(inst) == inst.nbuses as real
    ensures req.travelTime == inst.travelTime && req.demand == inst.demand
    ensures req.congestion.Congested? <==> inst.congested
  {
    Request(
      [AllStops(NStops(inst))],
      [1.0 / AllStopTripTime(inst) * (inst.nbuses as real)],
      inst.travelTime,
      inst.demand,
      CongestionOf(inst))
  }

  /** The baseline request reads only the problem data, never the baseline itself. */
  lemma BaselineRequestIgnoresBaseline(inst: Instance, ttd: Matrix, flow: seq<real>, obj: real)
    requires IsSquare(inst.travelTime, NStops(inst)) && AllStopTripTime(inst) != 0.0
    ensures var filled := inst.(baseTtd := ttd, baseFlow := flow, baseObj := obj);
      AllStopTripTime(filled) == AllStopTripTime(inst) && BaselineRequest(filled) == BaselineRequest(inst)
  {
    var filled := inst.(baseTtd := ttd, baseFlow := flow, baseObj := obj);
    assert NStops(filled) == NStops(inst);
    assert CongestionOf(filled) == CongestionOf(inst);
    assert AllStopTripTime(filled) == AllStopTripTime(inst);
    assert BaselineRequest(filled).frequencies[0] == BaselineRequest(inst).frequencies[0];
  }
}

=== FILE: lssdp_solution.dfy ===
/** `LSSDPSolution` of `lssdp.py`: one limited-stop service on top of the
    all-stop route, which runs whatever remains of the instance's fleet. */
module LssdpSolution {
  import opened Results
  import opened Matrices
  import opened Routes
  import opened Services
  import opened Assignments
  import opened Instances
  import opened Evaluations
  import opened Reports
  import StatsHelper
  import RealSeqs
  import Actions

  datatype Solution = Solution(inst: Instance, lss: Service, eval: Evaluation)

  /** What the operations keep: a well-formed instance, a sorted limited-stop
      service inside it, and a square time-to-destination matrix. */
  predicate Good(sol: Solution)
  {
    && Instances.WellFormed(sol.inst)
    && Services.WellFormed(sol.lss, NStops(sol.inst))
    && IsSquare(sol.eval.ttd, NStops(sol.inst))
  }

  /** `LSSDPSolution(inst)`: a limited-stop service with one bus and no stops
      yet, and every figure at parity with the baseline. */
  function New(inst: Instance): (sol: Solution)
    ensures sol.inst == inst
    ensures sol.lss == Service([], 1) && !IsValid(sol.lss)
    ensures sol.eval.obj == 1.0 && sol.eval.prevObj == 1.0
    ensures sol.eval.ttd == inst.baseTtd && sol.eval.flow == inst.baseFlow
    ensures sol.eval.relTtd == TriuOnesLike(inst.baseTtd)
    ensures Instances.WellFormed(inst) ==> Good(sol)
  {
    Solution(inst, Service([], 1), Fresh(inst))
  }

  /** The buses left to the all-stop route; nothing bounds it from below. */
  function AllStopBuses(sol: Solution): int
  {
    sol.inst.nbuses - sol.lss.nbuses
  }

  /** The request of a valid service: the all-stop route and the limited-stop
      route, in that order, each at the frequency its buses give over its
      trip time (the all-stop route keeps the fleet the limited-stop service
      does not take), to the congested solver exactly when the instance is. */
  function ServiceRequest(inst: Instance, lss: Service): (req: Request)
    requires Instances.WellFormed(inst) && Services.WellFormed(lss, NStops(inst)) && IsValid(lss)
    ensures req.alignments == [AllStops(NStops(inst)), lss.stops]
    ensures |req.frequencies| == 2
    ensures req.frequencies[0] * AllStopTripTime(inst) == (inst.nbuses - lss.nbuses) as real
    ensures req.frequencies[1] * TripTime(inst.travelTime, lss.stops) == lss.nbuses as real
    ensures req.travelTime == inst.travelTime && req.demand == inst.demand
    ensures req.congestion == CongestionOf(inst)
    ensures LayoutLength(req.alignments) == Legs(NStops(inst)) + Legs(|lss.stops|)
  {
    AllStopTripTimePositive(inst);
    TripTimePositive(inst.travelTime, lss.stops);
    var req := Request(
      [AllStops(NStops(inst)), lss.stops],
      [1.0 / AllStopTripTime(inst) * ((inst.nbuses - lss.nbuses) as real),
       1.0 / TripTime(inst.travelTime, lss.stops) * (lss.nbuses as real)],
      inst.travelTime,
      inst.demand,
      CongestionOf(inst));
    assert LayoutLength(req.alignments) == Legs(NStops(inst)) + LayoutLength([lss.stops]) by {
      assert req.alignments[1..] == [lss.stops];
    }
    assert LayoutLength([lss.stops]) == Legs(|lss.stops|) + LayoutLength([]) by {
      assert [lss.stops][1..] == [];
    }
    req
  }

  function RequestFor(sol: Solution): Option<Request>
    requires Good(sol)
  {
    if IsValid(sol.lss) then Some(ServiceRequest(sol.inst, sol.lss)) else None
  }

  /** `_calculate_objective` on the current service. */
  function CalculateObjective(sol: Solution, oracle: Oracle): (r: Solution)
    requires Good(sol) && ShapesTtd(oracle, NStops(sol.inst))
    ensures Good(r)
    ensures r.inst == sol.inst && r.lss == sol.lss
    ensures r.eval == Recompute(sol.eval, sol.inst, RequestFor(sol), oracle)
  {
    sol.(eval := Recompute(sol.eval, sol.inst, RequestFor(sol), oracle))
  }

  /** `toggle(stop)`: flips one stop of the limited-stop service, then
      recomputes; the bus count and instance stay as they were. */
  function Toggle(sol: Solution, stop: nat, oracle: Oracle): (r: Solution)
    requires Good(sol) && stop < NStops(sol.inst) && ShapesTtd(oracle, NStops(sol.inst))
    ensures Good(r)
    ensures r.inst == sol.inst
    ensures r.lss.nbuses == sol.lss.nbuses
    ensures stop in r.lss.stops <==> stop !in sol.lss.stops
    ensures forall y :: y != stop ==> (y in r.lss.stops <==> y in sol.lss.stops)
    ensures r.eval.prevObj == sol.eval.obj
    ensures Services.WellFormed(Services.Toggle(sol.lss, stop), NStops(sol.inst))
    ensures r == CalculateObjective(sol.(lss := Services.Toggle(sol.lss, stop)), oracle)
  {
    ToggleWellFormed(sol.lss, stop, NStops(sol.inst));
    CalculateObjective(sol.(lss := Services.Toggle(sol.lss, stop)), oracle)
  }

  /** `add_bus()`: one more bus on the limited-stop service, with no upper
      bound, then recomputes. */
  function AddBus(sol: Solution, oracle: Oracle): (r: Solution)
    requires Good(sol) && ShapesTtd(oracle, NStops(sol.inst))
    ensures Good(r)
    ensures r.inst == sol.inst
    ensures r.lss.stops == sol.lss.stops && r.lss.nbuses == sol.lss.nbuses + 1
    ensures AllStopBuses(r) == AllStopBuses(sol) - 1
    ensures r.eval.prevObj == sol.eval.obj
    ensures r == CalculateObjective(sol.(lss := Services.AddBus(sol.lss)), oracle)
  {
    CalculateObjective(sol.(lss := Services.AddBus(sol.lss)), oracle)
  }

  /** `terminate()`: only the checkpoint moves. */
  function Terminate(sol: Solution): (r: Solution)
    ensures r.inst == sol.inst && r.lss == sol.lss
    ensures r.eval.prevObj == sol.eval.obj && r.eval.obj == sol.eval.obj
    ensures r.eval.ttd == sol.eval.ttd && r.eval.flow == sol.eval.flow && r.eval.relTtd == sol.eval.relTtd
  {
    sol.(eval := Evaluations.Terminate(sol.eval))
  }

  /** `_capacities`: three entries per all-stop leg at the all-stop fleet's
      capacity, followed (with a valid service) by three per limited-stop leg
      at the limited-stop fleet's capacity. */
  function Capacities(sol: Solution): (caps: seq<real>)
    ensures var n := NStops(sol.inst);
      !IsValid(sol.lss) && n >= 1 ==>
        |caps| == Legs(n) && forall k :: 0 <= k < |caps| ==> caps[k] == (sol.inst.nbuses as real) * sol.inst.capacity
    ensures var n := NStops(sol.inst);
      IsValid(sol.lss) && n >= 1 ==>
        && |caps| == Legs(n) + Legs(|sol.lss.stops|)
        && (forall k :: 0 <= k < Legs(n) ==> caps[k] == (AllStopBuses(sol) as real) * sol.inst.capacity)
        && (forall k :: Legs(n) <= k < |caps| ==> caps[k] == (sol.lss.nbuses as real) * sol.inst.capacity)
  {
    var n := NStops(sol.inst);
    if !IsValid(sol.lss) then Repeat((sol.inst.nbuses as real) * sol.inst.capacity, Legs(n))
    else
      Repeat((AllStopBuses(sol) as real) * sol.inst.capacity, Legs(n))
      + Repeat((sol.lss.nbuses as real) * sol.inst.capacity, Legs(|sol.lss.stops|))
  }

  /** The capacity of every flow entry is the vehicle capacity times the
      buses of the route that leg belongs to, which is that route's
      requested frequency times its trip time. */
  lemma CapacitiesFollowRequest(sol: Solution)
    requires Good(sol) && IsValid(sol.lss)
    ensures var req := ServiceRequest(sol.inst, sol.lss);
      && |Capacities(sol)| == LayoutLength(req.alignments)
      && (forall k :: 0 <= k < Legs(NStops(sol.inst)) ==>
            Capacities(sol)[k] == req.frequencies[0] * AllStopTripTime(sol.inst) * sol.inst.capacity)
      && (forall k :: Legs(NStops(sol.inst)) <= k < |Capacities(sol)| ==>
            Capacities(sol)[k] == req.frequencies[1] * TripTime(sol.inst.travelTime, sol.lss.stops) * sol.inst.capacity)
  {
  }

  /** `stats`. */
  function Stats(sol: Solution): (r: Report)
    requires Good(sol)
    ensures r.ttd == StatsHelper.Calculate(StatsHelper.Grid(sol.eval.ttd), true)
    ensures !sol.inst.congested ==> r.lf == NotCongested
    ensures !IsValid(sol.lss) ==> r.perFlowExp == Some(StatsHelper.Summary(0.0, 0.0, 0.0, Some(0.0)))
    ensures sol.inst.congested ==> (r.lf == ShapeMismatch <==> !Broadcasts(sol.eval.flow, Capacities(sol)))
    ensures var caps := Capacities(sol);
      sol.inst.congested && Broadcasts(sol.eval.flow, caps) ==>
        if exists k :: 0 <= k < |caps| && caps[k] == 0.0 then r.lf == NonFinite
        else r.lf == Factors(StatsHelper.Calculate(StatsHelper.Vector(Divide(sol.eval.flow, caps)), true))
    ensures IsValid(sol.lss) ==> (r.perFlowExp.None? <==> RealSeqs.Sum(sol.eval.flow) == 0.0)
    ensures IsValid(sol.lss) && RealSeqs.Sum(sol.eval.flow) != 0.0 ==>
      var x := RealSeqs.Sum(Drop(sol.eval.flow, Legs(NStops(sol.inst)) as nat)) / RealSeqs.Sum(sol.eval.flow);
      r.perFlowExp == Some(StatsHelper.Summary(x, x, x, Some(x)))
  {
    MakeReport(sol.eval.ttd, sol.eval.flow, Capacities(sol), sol.inst.congested, IsValid(sol.lss), Legs(NStops(sol.inst)) as nat)
  }

  /** The all-stop route is asked to run at a frequency of zero or less
      exactly when the limited-stop service has taken the whole fleet. */
  lemma AllStopFrequencyNonPositive(sol: Solution)
    requires Good(sol) && IsValid(sol.lss)
    ensures ServiceRequest(sol.inst, sol.lss).frequencies[0] <= 0.0 <==> sol.lss.nbuses >= sol.inst.nbuses
  {
    var req := ServiceRequest(sol.inst, sol.lss);
    var t := AllStopTripTime(sol.inst);
    AllStopTripTimePositive(sol.inst);
    SignOfQuotient(req.frequencies[0], t, AllStopBuses(sol) as real);
  }

  lemma SignOfQuotient(f: real, t: real, b: real)
    requires t > 0.0 && f * t == b
    ensures f <= 0.0 <==> b <= 0.0
  {
    if f > 0.0 {
      assert f * t > 0.0;
    } else {
      assert f * t <= 0.0;
    }
  }

  /** A new solution is settled: its figures are what the invalid branch gives. */
  lemma NewSettled(inst: Instance, oracle: Oracle)
    requires Instances.WellFormed(inst)
    ensures Settled(New(inst).eval, inst, RequestFor(New(inst)), oracle)
  {
  }

  /** Toggling the same stop twice from a settled solution gives back the
      service, the objective, the time to destination and its ratio; the flow
      comes back too when the service is valid. */
  lemma ToggleTwiceRestores(sol: Solution, stop: nat, oracle: Oracle)
    requires Good(sol) && stop < NStops(sol.inst) && ShapesTtd(oracle, NStops(sol.inst))
    requires Settled(sol.eval, sol.inst, RequestFor(sol), oracle)
    ensures var t := Toggle(Toggle(sol, stop, oracle), stop, oracle);
      && t.lss == sol.lss
      && t.eval.obj == sol.eval.obj && t.eval.ttd == sol.eval.ttd && t.eval.relTtd == sol.eval.relTtd
      && (IsValid(sol.lss) ==> t.eval.flow == sol.eval.flow)
  {
    var once := Toggle(sol, stop, oracle);
    var t := Toggle(once, stop, oracle);
    ToggleTwice(sol.lss, stop);
    RecomputeSettledIsStable(sol.eval, once.eval, sol.inst, RequestFor(sol), oracle);
  }

  /** Applies the caller's actions in order. */
  function Run(sol: Solution, actions: seq<Actions.Action>, oracle: Oracle): (r: Solution)
    requires Good(sol) && Actions.InRange(actions, NStops(sol.inst)) && ShapesTtd(oracle, NStops(sol.inst))
    ensures Good(r) && r.inst == sol.inst
    ensures r.lss.nbuses == sol.lss.nbuses + Actions.BusesAdded(actions)
    decreases |actions|
  {
    if |actions| == 0 then sol
    else
      var next := match actions[0]
        case ToggleStop(stop) => Toggle(sol, stop, oracle)
        case AddOneBus => AddBus(sol, oracle)
        case EndStep => Terminate(sol);
      Run(next, actions[1..], oracle)
  }

  /** Every operation leaves the solution settled for its own service, so a
      settled solution stays settled over any run. */
  lemma {:induction false} RunSettled(sol: Solution, actions: seq<Actions.Action>, oracle: Oracle)
    requires Good(sol) && Actions.InRange(actions, NStops(sol.inst)) && ShapesTtd(oracle, NStops(sol.inst))
    requires Settled(sol.eval, sol.inst, RequestFor(sol), oracle)
    ensures var r := Run(sol, actions, oracle);
      Settled(r.eval, r.inst, RequestFor(r), oracle)
    decreases |actions|
  {
    if |actions| > 0 {
      var next := match actions[0]
        case ToggleStop(stop) => Toggle(sol, stop, oracle)
        case AddOneBus => AddBus(sol, oracle)
        case EndStep => Terminate(sol);
      match actions[0] {
        case ToggleStop(stop) =>
          var edited := sol.(lss := Services.Toggle(sol.lss, stop));
          RecomputeSettles(edited.eval, edited.inst, RequestFor(edited), oracle);
        case AddOneBus =>
          var edited := sol.(lss := Services.AddBus(sol.lss));
          RecomputeSettles(edited.eval, edited.inst, RequestFor(edited), oracle);
        case EndStep =>
      }
      assert Actions.InRange(actions[1..], NStops(sol.inst)) by {
        forall k | 0 <= k < |actions[1..]| && actions[1..][k].ToggleStop?
          ensures actions[1..][k].stop < NStops(sol.inst)
        {
          assert actions[1..][k] == actions[k + 1];
        }
      }
      RunSettled(next, actions[1..], oracle);
    }
  }

  /** Toggling a stop twice restores every solution reachable from a new one. */
  lemma ReachableToggleTwiceRestores(inst: Instance, actions: seq<Actions.Action>, stop: nat, oracle: Oracle)
    requires Instances.WellFormed(inst) && stop < NStops(inst)
    requires Actions.InRange(actions, NStops(inst)) && ShapesTtd(oracle, NStops(inst))
    ensures var s := Run(New(inst), actions, oracle);
      var t := Toggle(Toggle(s, stop, oracle), stop, oracle);
      && t.lss == s.lss
      && t.eval.obj == s.eval.obj && t.eval.ttd == s.eval.ttd && t.eval.relTtd == s.eval.relTtd
      && (IsValid(s.lss) ==> t.eval.flow == s.eval.flow)
  {
    NewSettled(inst, oracle);
    RunSettled(New(inst), actions, oracle);
    ToggleTwiceRestores(Run(New(inst), actions, oracle), stop, oracle);
  }

  /** The invalid branch keeps the flow of the last valid evaluation. From a
      settled three-stop service of a congested instance, dropping one of its
      stops leaves a flow vector six entries longer than the capacity vector,
      and `stats` then asks numpy to divide arrays that do not broadcast. */
  lemma StaleFlowBreaksLoadFactors(sol: Solution, stop: nat, oracle: Oracle)
    requires Good(sol) && stop < NStops(sol.inst) && ShapesTtd(oracle, NStops(sol.inst))
    requires IsValid(sol.lss) && |sol.lss.stops| == 3 && stop in sol.lss.stops
    requires LaysOutFlow(oracle, ServiceRequest(sol.inst, sol.lss))
    requires Settled(sol.eval, sol.inst, RequestFor(sol), oracle)
    requires sol.inst.congested
    ensures var r := Toggle(sol, stop, oracle);
      && !IsValid(r.lss)
      && |r.eval.flow| == |Capacities(r)| + 6
      && Stats(r).lf == ShapeMismatch
  {
    var r := Toggle(sol, stop, oracle);
    var req := ServiceRequest(sol.inst, sol.lss);
    assert LaysOutFlow(oracle, req);
    assert |r.eval.flow| == Legs(NStops(sol.inst)) + Legs(3);
  }

  /** `_calculate_objective` with the evidently intended invalid branch,
      which also puts the flow back to the baseline flow. */
  function CalculateObjectiveResettingFlow(sol: Solution, oracle: Oracle): (r: Solution)
    requires Good(sol) && ShapesTtd(oracle, NStops(sol.inst))
    ensures Good(r)
    ensures r.inst == sol.inst && r.lss == sol.lss
    ensures !IsValid(sol.lss) ==> r.eval.flow == sol.inst.baseFlow
    ensures IsValid(sol.lss) ==> r == CalculateObjective(sol, oracle)
  {
    sol.(eval := RecomputeResettingFlow(sol.eval, sol.inst, RequestFor(sol), oracle))
  }

  /** With the flow reset, the flow vector always has one entry per capacity,
      whatever the service, so the congested load factors are always
      computable: the property the as-written invalid branch loses. */
  lemma ResettingFlowFitsCapacities(sol: Solution, oracle: Oracle)
    requires Good(sol) && ShapesTtd(oracle, NStops(sol.inst))
    requires IsValid(sol.lss) ==> LaysOutFlow(oracle, ServiceRequest(sol.inst, sol.lss))
    requires |sol.inst.baseFlow| == Legs(NStops(sol.inst))
    ensures var r := CalculateObjectiveResettingFlow(sol, oracle);
      && |r.eval.flow| == |Capacities(r)|
      && Stats(r).lf != ShapeMismatch
  {
    if IsValid(sol.lss) {
      assert LaysOutFlow(oracle, ServiceRequest(sol.inst, sol.lss));
    }
  }
}

=== FILE: matrices.dfy ===
/** Square matrices of reals, as numpy holds the travel-time, demand and
    time-to-destination arrays, with the upper-triangular masks the source
    applies to them. */
module Matrices {

  type Matrix = seq<seq<real>>

  predicate IsSquare(m: Matrix, n: nat)
  {
    |m| == n && forall i :: 0 <= i < n ==> |m[i]| == n
  }

  predicate SameShape(a: Matrix, b: Matrix)
  {
    |a| == |b| && forall i :: 0 <= i < |a| ==> |a[i]| == |b[i]|
  }

  /** Zero on the diagonal and everywhere below it. */
  predicate ZeroOnAndBelowDiagonal(m: Matrix)
  {
    forall i, j :: 0 <= j <= i < |m| && j < |m[i]| ==> m[i][j] == 0.0
  }

  /** `np.triu(m, 1)`: keeps the entries strictly above the diagonal. */
  function Triu(m: Matrix): (r: Matrix)
    ensures SameShape(r, m)
    ensures ZeroOnAndBelowDiagonal(r)
    ensures forall i, j :: 0 <= i < j < |m| && j < |m[i]| ==> r[i][j] == m[i][j]
  {
    seq(|m|, i requires 0 <= i < |m| =>
      seq(|m[i]|, j requires 0 <= j < |m[i]| => if i < j then m[i][j] else 0.0))
  }

  /** `np.triu(np.ones_like(m), 1)`: ones strictly above the diagonal, zeros elsewhere. */
  function TriuOnesLike(m: Matrix): (r: Matrix)
    ensures SameShape(r, m)
    ensures ZeroOnAndBelowDiagonal(r)
    ensures forall i, j :: 0 <= i < j < |m| && j < |m[i]| ==> r[i][j] == 1.0
  {
    seq(|m|, i requires 0 <= i < |m| =>
      seq(|m[i]|, j requires 0 <= j < |m[i]| => if i < j then 1.0 else 0.0))
  }

  /** `np.divide(a, b, out=np.zeros_like(b), where=(b != 0))`: the elementwise
      ratio wherever the divisor is non-zero and zero elsewhere. */
  function MaskedRatio(a: Matrix, b: Matrix): (r: Matrix)
    requires SameShape(a, b)
    ensures SameShape(r, b)
    ensures forall i, j :: 0 <= i < |b| && 0 <= j < |b[i]| && b[i][j] != 0.0 ==> r[i][j] * b[i][j] == a[i][j]
    ensures forall i, j :: 0 <= i < |b| && 0 <= j < |b[i]| && b[i][j] == 0.0 ==> r[i][j] == 0.0
  {
    seq(|b|, i requires 0 <= i < |b| =>
      seq(|b[i]|, j requires 0 <= j < |b[i]| => if b[i][j] != 0.0 then a[i][j] / b[i][j] else 0.0))
  }

  /** `r` is the masked ratio of `a` to `b`: shaped like `b`, `r * b == a`
      wherever `b` is non-zero and zero wherever `b` is zero. */
  predicate IsMaskedRatio(r: Matrix, a: Matrix, b: Matrix)
    requires SameShape(a, b)
  {
    && SameShape(r, b)
    && (forall i, j :: 0 <= i < |b| && 0 <= j < |b[i]| && b[i][j] != 0.0 ==> r[i][j] * b[i][j] == a[i][j])
    && (forall i, j :: 0 <= i < |b| && 0 <= j < |b[i]| && b[i][j] == 0.0 ==> r[i][j] == 0.0)
  }

  /** The masked ratio is determined by its two operands. */
  lemma MaskedRatioUnique(r: Matrix, a: Matrix, b: Matrix)
    requires SameShape(a, b)
    requires IsMaskedRatio(r, a, b)
    ensures r == MaskedRatio(a, b)
  {
    var m := MaskedRatio(a, b);
    forall i | 0 <= i < |b|
      ensures r[i] == m[i]
    {
      forall j | 0 <= j < |b[i]|
        ensures r[i][j] == m[i][j]
      {
        if b[i][j] != 0.0 {
          Cancel(r[i][j], m[i][j], b[i][j]);
        }
      }
    }
  }

  lemma Cancel(x: real, y: real, c: real)
    requires c != 0.0 && x * c == y * c
    ensures x == y
  {
    assert (x - y) * c == 0.0;
  }

  /** Dividing the baseline by itself gives exactly the strict-upper ones mask
      when the baseline is non-zero strictly above the diagonal and zero on
      and below it; the reset value of `rel_ttd` is what the ratio computes
      for a design that reproduces the baseline. */
  lemma SelfRatioIsTriuOnes(b: Matrix, n: nat)
    requires IsSquare(b, n)
    requires ZeroOnAndBelowDiagonal(b)
    requires forall i, j :: 0 <= i < j < n ==> b[i][j] != 0.0
    ensures MaskedRatio(b, b) == TriuOnesLike(b)
  {
    var r := MaskedRatio(b, b);
    var t := TriuOnesLike(b);
    forall i | 0 <= i < n
      ensures r[i] == t[i]
    {
      forall j | 0 <= j < n
        ensures r[i][j] == t[i][j]
      {
        if i < j {
          assert r[i][j] * b[i][j] == b[i][j];
        }
      }
    }
  }

  /** All entries, row after row (numpy's C order). */
  function Flatten(m: Matrix): (r: seq<real>)
    ensures forall i, j :: 0 <= i < |m| && 0 <= j < |m[i]| ==> m[i][j] in r
    ensures forall x :: x in r ==> exists i, j :: 0 <= i < |m| && 0 <= j < |m[i]| && m[i][j] == x
  {
    if |m| == 0 then []
    else
      var rest := Flatten(m[1..]);
      assert forall i :: 1 <= i < |m| ==> m[i] == m[1..][i - 1];
      m[0] + rest
  }

  /** Where row i starts in `Flatten(m)`: after every entry of rows `0..i-1`. */
  function RowOffset(m: Matrix, i: nat): nat
    requires i <= |m|
  {
    if i == 0 then 0 else |m[0]| + RowOffset(m[1..], i - 1)
  }

  /** Where entry (i, j) sits in `Flatten(m)`. */
  function FlatIndex(m: Matrix, i: nat, j: nat): nat
    requires i < |m|
  {
    RowOffset(m, i) + j
  }

  /** The (row, column) of the entry at position k of `Flatten(m)`: the
      inverse of `FlatIndex`. */
  function FlatEntry(m: Matrix, k: nat): (p: (nat, nat))
    requires k < |Flatten(m)|
    ensures p.0 < |m| && p.1 < |m[p.0]|
    ensures FlatIndex(m, p.0, p.1) == k
  {
    if k < |m[0]| then (0, k)
    else
      var q := FlatEntry(m[1..], k - |m[0]|);
      (q.0 + 1, q.1)
  }

  /** Entry (i, j) sits at `FlatIndex(m, i, j)` of the flattening. */
  lemma {:induction false} FlattenAt(m: Matrix, i: nat, j: nat)
    requires i < |m| && j < |m[i]|
    ensures FlatIndex(m, i, j) < |Flatten(m)|
    ensures Flatten(m)[FlatIndex(m, i, j)] == m[i][j]
  {
    assert Flatten(m) == m[0] + Flatten(m[1..]);
    if i > 0 {
      FlattenAt(m[1..], i - 1, j);
    }
  }

  /** Every entry is listed once, in row order: entry (i, j) at position
      `FlatIndex(m, i, j)`, and position k holds the entry `FlatEntry(m, k)`
      whose position is k, so the flattening has the matrix's multiplicities. */
  lemma FlattenInRowOrder(m: Matrix)
    ensures |Flatten(m)| == RowOffset(m, |m|)
    ensures forall i, j :: 0 <= i < |m| && 0 <= j < |m[i]| ==>
      FlatIndex(m, i, j) < |Flatten(m)| && Flatten(m)[FlatIndex(m, i, j)] == m[i][j]
    ensures forall k :: 0 <= k < |Flatten(m)| ==>
      Flatten(m)[k] == m[FlatEntry(m, k).0][FlatEntry(m, k).1]
  {
    FlattenLength(m);
    forall i, j | 0 <= i < |m| && 0 <= j < |m[i]|
      ensures FlatIndex(m, i, j) < |Flatten(m)| && Flatten(m)[FlatIndex(m, i, j)] == m[i][j]
    {
      FlattenAt(m, i, j);
    }
    forall k | 0 <= k < |Flatten(m)|
      ensures Flatten(m)[k] == m[FlatEntry(m, k).0][FlatEntry(m, k).1]
    {
      var p := FlatEntry(m, k);
      FlattenAt(m, p.0, p.1);
    }
  }

  /** The flattening holds every entry: its length is the sum of the rows'. */
  lemma {:induction false} FlattenLength(m: Matrix)
    ensures |Flatten(m)| == RowOffset(m, |m|)
  {
    if |m| > 0 {
      FlattenLength(m[1..]);
      assert Flatten(m) == m[0] + Flatten(m[1..]);
      assert RowOffset(m, |m|) == |m[0]| + RowOffset(m[1..], |m[1..]|);
    }
  }
}

=== FILE: realseqs.dfy ===
/** Folds over sequences of reals: the sum, minimum and maximum that numpy's
    `np.sum`, `np.min` and `np.max` compute over a flat array. */
module RealSeqs {

  function Sum(s: seq<real>): real
  {
    if |s| == 0 then 0.0 else s[0] + Sum(s[1..])
  }

  /** The least element of a non-empty sequence. */
  function Min(s: seq<real>): (m: real)
    requires |s| > 0
    ensures m in s
    ensures forall k :: 0 <= k < |s| ==> m <= s[k]
  {
    if |s| == 1 then s[0]
    else
      var rest := Min(s[1..]);
      assert forall k :: 1 <= k < |s| ==> s[k] == s[1..][k - 1];
      if s[0] <= rest then s[0] else rest
  }

  /** The greatest element of a non-empty sequence. */
  function Max(s: seq<real>): (m: real)
    requires |s| > 0
    ensures m in s
    ensures forall k :: 0 <= k < |s| ==> s[k] <= m
  {
    if |s| == 1 then s[0]
    else
      var rest := Max(s[1..]);
      assert forall k :: 1 <= k < |s| ==> s[k] == s[1..][k - 1];
      if s[0] >= rest then s[0] else rest
  }

  lemma {:induction false} SumAppend(a: seq<real>, b: seq<real>)
    ensures Sum(a + b) == Sum(a) + Sum(b)
  {
    if |a| == 0 {
      assert a + b == b;
    } else {
      assert (a + b)[1..] == a[1..] + b;
      SumAppend(a[1..], b);
    }
  }

  /** Every element in `[lo, hi]` bounds the sum between `|s|*lo` and `|s|*hi`. */
  lemma {:induction false} SumBounds(s: seq<real>, lo: real, hi: real)
    requires forall k :: 0 <= k < |s| ==> lo <= s[k] <= hi
    ensures (|s| as real) * lo <= Sum(s) <= (|s| as real) * hi
  {
    if |s| > 0 {
      SumBounds(s[1..], lo, hi);
      var m := (|s| - 1) as real;
      assert (|s| as real) * lo == m * lo + lo;
      assert (|s| as real) * hi == m * hi + hi;
    }
  }

  /** A sum of non-negative reals is non-negative. */
  lemma {:induction false} SumNonNegative(s: seq<real>)
    requires forall k :: 0 <= k < |s| ==> 0.0 <= s[k]
    ensures 0.0 <= Sum(s)
  {
    if |s| > 0 {
      SumNonNegative(s[1..]);
    }
  }
}

=== FILE: reports.dfy ===
/** The `stats` property of a solution: summaries of the time to
    destination, of the load factors, and of the share of flow on the
    limited-stop service. */
module Reports {
  import opened Results
  import opened Matrices
  import opened StatsHelper
  import RealSeqs

  /** The load-factor slot. `NotCongested` is the all-NaN placeholder of an
      uncongested instance; `ShapeMismatch` is where numpy refuses to divide
      arrays whose lengths do not broadcast; `NonFinite` is a division by a
      zero capacity. */
  datatype LoadFactors =
    | NotCongested
    | ShapeMismatch
    | NonFinite
    | Factors(summary: Option<Summary>)

  datatype Report = Report(ttd: Option<Summary>, lf: LoadFactors, perFlowExp: Option<Summary>)

  /** numpy broadcasting of two vectors: equal lengths, or one of length one. */
  predicate Broadcasts(a: seq<real>, b: seq<real>)
  {
    |a| == |b| || |a| == 1 || |b| == 1
  }

  /** `np.divide(flow, capacities)` with broadcasting, when no divisor is zero. */
  function Divide(flow: seq<real>, caps: seq<real>): (r: seq<real>)
    requires Broadcasts(flow, caps)
    requires forall k :: 0 <= k < |caps| ==> caps[k] != 0.0
    ensures |flow| == |caps| ==> |r| == |flow| && forall k :: 0 <= k < |r| ==> r[k] * caps[k] == flow[k]
    ensures |caps| == 1 ==> |r| == |flow| && forall k :: 0 <= k < |r| ==> r[k] * caps[0] == flow[k]
    ensures |flow| == 1 ==> |r| == |caps| && forall k :: 0 <= k < |r| ==> r[k] * caps[k] == flow[0]
  {
    if |flow| == |caps| then seq(|flow|, k requires 0 <= k < |flow| => flow[k] / caps[k])
    else if |caps| == 1 then seq(|flow|, k requires 0 <= k < |flow| => flow[k] / caps[0])
    else seq(|caps|, k requires 0 <= k < |caps| => flow[0] / caps[k])
  }

  /** The `lf` entry: the summary of flow over capacity for a congested
      instance, the NaN placeholder otherwise. */
  function LoadFactorStats(flow: seq<real>, caps: seq<real>, congested: bool): (r: LoadFactors)
    ensures r.NotCongested? <==> !congested
    ensures congested ==> (r.ShapeMismatch? <==> !Broadcasts(flow, caps))
    ensures r.NonFinite? <==> congested && Broadcasts(flow, caps) && exists k :: 0 <= k < |caps| && caps[k] == 0.0
    ensures r.Factors? <==> congested && Broadcasts(flow, caps) && forall k :: 0 <= k < |caps| ==> caps[k] != 0.0
    ensures r.Factors? ==> r.summary == Calculate(Vector(Divide(flow, caps)), true)
  {
    if !congested then NotCongested
    else if !Broadcasts(flow, caps) then ShapeMismatch
    else if exists k :: 0 <= k < |caps| && caps[k] == 0.0 then NonFinite
    else Factors(Calculate(Vector(Divide(flow, caps)), true))
  }

  /** Python's `flow[k:]` for k >= 0: empty once k reaches the length. */
  function Drop(flow: seq<real>, k: nat): (r: seq<real>)
    ensures k <= |flow| ==> flow == flow[..k] + r
    ensures k > |flow| ==> r == []
  {
    if k >= |flow| then [] else flow[k..]
  }

  /** `per_flow_exp`: the fraction of the flow beyond the first `allStopLegs`
      entries, that is on the limited-stop route; 0 without a valid service,
      `None` when the total flow is zero and the ratio is not finite. */
  function LimitedStopShare(flow: seq<real>, allStopLegs: nat, valid: bool): (r: Option<real>)
    ensures !valid ==> r == Some(0.0)
    ensures valid ==> (r.None? <==> RealSeqs.Sum(flow) == 0.0)
    ensures valid && r.Some? ==> r.value * RealSeqs.Sum(flow) == RealSeqs.Sum(Drop(flow, allStopLegs))
  {
    if !valid then Some(0.0)
    else
      var total := RealSeqs.Sum(flow);
      if total == 0.0 then None else Some(RealSeqs.Sum(Drop(flow, allStopLegs)) / total)
  }

  /** With non-negative flows the share is a fraction in [0, 1]. */
  lemma LimitedStopShareIsFraction(flow: seq<real>, allStopLegs: nat, valid: bool)
    requires forall k :: 0 <= k < |flow| ==> flow[k] >= 0.0
    ensures var s := LimitedStopShare(flow, allStopLegs, valid);
      s.Some? ==> 0.0 <= s.value <= 1.0
  {
    if valid && allStopLegs <= |flow| {
      var head := flow[..allStopLegs];
      var tail := Drop(flow, allStopLegs);
      RealSeqs.SumAppend(head, tail);
      RealSeqs.SumNonNegative(head);
      RealSeqs.SumNonNegative(tail);
      var total := RealSeqs.Sum(flow);
      if total != 0.0 {
        FractionBounds(RealSeqs.Sum(tail), total);
      }
    }
  }

  lemma FractionBounds(part: real, total: real)
    requires 0.0 <= part <= total && total != 0.0
    ensures 0.0 <= part / total <= 1.0
  {
    assert (part / total) * total == part;
    assert (part / total - 1.0) * total == part - total;
  }

  /** The report: `calculate_stats` of the time to destination (a square
      matrix, so only its strict upper triangle), of the load factors, and of
      the single limited-stop share. */
  function MakeReport(ttd: Matrix, flow: seq<real>, caps: seq<real>, congested: bool, valid: bool, allStopLegs: nat): (r: Report)
    requires Rectangular(ttd)
    ensures r.ttd == Calculate(Grid(ttd), true)
    ensures r.lf == LoadFactorStats(flow, caps, congested)
    ensures !valid ==> r.perFlowExp == Some(Summary(0.0, 0.0, 0.0, Some(0.0)))
    ensures valid ==> (r.perFlowExp.None? <==> RealSeqs.Sum(flow) == 0.0)
    ensures valid && RealSeqs.Sum(flow) != 0.0 ==>
      var x := RealSeqs.Sum(Drop(flow, allStopLegs)) / RealSeqs.Sum(flow);
      r.perFlowExp == Some(Summary(x, x, x, Some(x)))
  {
    var share := LimitedStopShare(flow, allStopLegs, valid);
    Report(Calculate(Grid(ttd), true), LoadFactorStats(flow, caps, congested), ShareSummary(share))
  }

  /** `calculate_stats([share])`: every slot holds the share; nothing when the
      share is not finite. */
  function ShareSummary(share: Option<real>): (r: Option<Summary>)
    ensures share.None? ==> r.None?
    ensures share.Some? ==> r == Some(Summary(share.value, share.value, share.value, Some(share.value)))
  {
    match share
    case None => None
    case Some(x) =>
      SingleValueSummary(x);
      Calculate(Vector([x]), true)
  }
}

=== FILE: results.dfy ===
/** Failure-carrying wrappers shared by every module of the model.
    `Option` stands for a value that the source would report as NaN,
    `Result` for a computation that the source aborts with an exception. */
module Results {

  datatype Option<+T> = None | Some(value: T)

  datatype Result<+T, +E> = Success(value: T) | Failure(error: E) {

    predicate IsFailure() {
      Failure?
    }

    function PropagateFailure<U>(): Result<U, E>
      requires Failure?
    {
      Failure(error)
    }

    function Extract(): T
      requires Success?
    {
      value
    }
  }
}

=== FILE: routes.dfy ===
/** `trip_time`: the running time of a bus along a stop sequence, the sum of
    the travel times between consecutive stops. */
module Routes {
  import opened Matrices
  import RealSeqs

  /** Every stop indexes a row (and a column) of an n-by-n matrix. */
  predicate StopsIn(stops: seq<nat>, n: nat)
  {
    forall k :: 0 <= k < |stops| ==> stops[k] < n
  }

  predicate StrictlyIncreasing(stops: seq<nat>)
  {
    forall a, b :: 0 <= a < b < |stops| ==> stops[a] < stops[b]
  }

  /** Strictly positive travel time between every ordered pair i < j. */
  predicate PositiveAboveDiagonal(tt: Matrix)
    requires IsSquare(tt, |tt|)
  {
    forall i, j :: 0 <= i < j < |tt| ==> tt[i][j] > 0.0
  }

  predicate NonNegative(tt: Matrix)
  {
    forall i, j :: 0 <= i < |tt| && 0 <= j < |tt[i]| ==> tt[i][j] >= 0.0
  }

  /** The stop sequence 0, 1, ..., n-1 of the all-stop route. */
  function AllStops(n: nat): (r: seq<nat>)
    ensures |r| == n
    ensures forall k :: 0 <= k < n ==> r[k] == k
  {
    seq(n, k requires 0 <= k => k as nat)
  }

  /** The sum over consecutive pairs; zero for fewer than two stops.
      `TripTimeIsSumOfLegs` and `TripTimeSnoc` state what it computes. */
  function TripTime(tt: Matrix, stops: seq<nat>): real
    requires IsSquare(tt, |tt|)
    requires StopsIn(stops, |tt|)
  {
    if |stops| < 2 then 0.0 else tt[stops[0]][stops[1]] + TripTime(tt, stops[1..])
  }

  /** Extending a route by one stop adds exactly the travel time of the new leg. */
  lemma {:induction false} TripTimeSnoc(tt: Matrix, s: seq<nat>, a: nat, b: nat)
    requires IsSquare(tt, |tt|)
    requires StopsIn(s, |tt|) && a < |tt| && b < |tt|
    ensures StopsIn(s + [a], |tt|) && StopsIn(s + [a, b], |tt|)
    ensures TripTime(tt, s + [a, b]) == TripTime(tt, s + [a]) + tt[a][b]
  {
    if |s| == 0 {
      assert [a, b][1..] == [b];
    } else {
      assert (s + [a, b])[1..] == s[1..] + [a, b];
      assert (s + [a])[1..] == s[1..] + [a];
      TripTimeSnoc(tt, s[1..], a, b);
    }
  }

  /** Non-negative link times give a non-negative trip time. */
  lemma {:induction false} TripTimeNonNegative(tt: Matrix, stops: seq<nat>)
    requires IsSquare(tt, |tt|)
    requires StopsIn(stops, |tt|)
    requires NonNegative(tt)
    ensures TripTime(tt, stops) >= 0.0
  {
    if |stops| >= 2 {
      TripTimeNonNegative(tt, stops[1..]);
    }
  }

  /** A route of at least two increasing stops over positive link times takes
      a positive time, so a frequency `buses / trip_time` is defined for it. */
  lemma {:induction false} TripTimePositive(tt: Matrix, stops: seq<nat>)
    requires IsSquare(tt, |tt|)
    requires StopsIn(stops, |tt|)
    requires StrictlyIncreasing(stops)
    requires PositiveAboveDiagonal(tt)
    requires |stops| >= 2
    ensures TripTime(tt, stops) > 0.0
  {
    if |stops| > 2 {
      TripTimePositive(tt, stops[1..]);
    }
  }

  /** The travel times of the legs `zip(stops[:-1], stops[1:])`, in order. */
  function LegTimes(tt: Matrix, stops: seq<nat>): (r: seq<real>)
    requires IsSquare(tt, |tt|)
    requires StopsIn(stops, |tt|)
    ensures |r| == if |stops| < 2 then 0 else |stops| - 1
    ensures forall k :: 0 <= k < |r| ==> r[k] == tt[stops[k]][stops[k + 1]]
  {
    if |stops| < 2 then [] else seq(|stops| - 1, k requires 0 <= k < |stops| - 1 => tt[stops[k]][stops[k + 1]])
  }

  /** `TripTime` is the sum of the leg times, which is how `trip_time` states it. */
  lemma {:induction false} TripTimeIsSumOfLegs(tt: Matrix, stops: seq<nat>)
    requires IsSquare(tt, |tt|)
    requires StopsIn(stops, |tt|)
    ensures TripTime(tt, stops) == RealSeqs.Sum(LegTimes(tt, stops))
  {
    if |stops| >= 2 {
      TripTimeIsSumOfLegs(tt, stops[1..]);
      var legs := LegTimes(tt, stops);
      assert legs[1..] == LegTimes(tt, stops[1..]);
    }
  }
}

=== FILE: services.dfy ===
/** A bus service: an increasing sequence of stop indices served by a number
    of buses. The all-stop route and the limited-stop candidate are both
    services; only the limited-stop one is edited. */
module Services {
  import opened Matrices
  import opened Routes

  datatype Service = Service(stops: seq<nat>, nbuses: int)

  /** A service takes part in the assignment only with at least three stops
      (two terminals and an intermediate stop) and at least one bus. */
  predicate IsValid(s: Service)
  {
    |s.stops| >= 3 && s.nbuses >= 1
  }

  /** The stop sequence stays sorted and inside the instance. */
  predicate WellFormed(s: Service, n: nat)
  {
    StrictlyIncreasing(s.stops) && StopsIn(s.stops, n)
  }

  /** Inserts `x` at its place in an increasing sequence. */
  function Insert(stops: seq<nat>, x: nat): (r: seq<nat>)
    requires StrictlyIncreasing(stops)
    ensures StrictlyIncreasing(r)
    ensures forall y :: y in r <==> y in stops || y == x
    ensures x !in stops ==> |r| == |stops| + 1
  {
    if |stops| == 0 then [x]
    else if x < stops[0] then [x] + stops
    else if x == stops[0] then stops
    else
      var rest := Insert(stops[1..], x);
      forall k | 0 <= k < |rest|
        ensures stops[0] < rest[k]
      {
        assert rest[k] in rest;
        assert forall i :: 1 <= i < |stops| ==> stops[0] < stops[i];
      }
      [stops[0]] + rest
  }

  /** Removes `x` from an increasing sequence. */
  function Delete(stops: seq<nat>, x: nat): (r: seq<nat>)
    requires StrictlyIncreasing(stops)
    ensures StrictlyIncreasing(r)
    ensures forall y :: y in r <==> y in stops && y != x
    ensures x in stops ==> |r| == |stops| - 1
  {
    if |stops| == 0 then []
    else if stops[0] == x then
      assert forall k :: 1 <= k < |stops| ==> stops[0] < stops[k];
      stops[1..]
    else
      var rest := Delete(stops[1..], x);
      assert forall k :: 0 <= k < |rest| ==> rest[k] in stops[1..];
      assert forall k :: 1 <= k < |stops| ==> stops[0] < stops[k];
      [stops[0]] + rest
  }

  /** Flips the membership of `stop`, keeping the sequence sorted; the bus
      count is untouched. */
  function Toggle(s: Service, stop: nat): (r: Service)
    requires StrictlyIncreasing(s.stops)
    ensures StrictlyIncreasing(r.stops)
    ensures r.nbuses == s.nbuses
    ensures stop in r.stops <==> stop !in s.stops
    ensures forall y :: y != stop ==> (y in r.stops <==> y in s.stops)
    ensures |r.stops| == if stop in s.stops then |s.stops| - 1 else |s.stops| + 1
  {
    if stop in s.stops then s.(stops := Delete(s.stops, stop)) else s.(stops := Insert(s.stops, stop))
  }

  function AddBus(s: Service): (r: Service)
    ensures r.stops == s.stops
    ensures r.nbuses == s.nbuses + 1
  {
    s.(nbuses := s.nbuses + 1)
  }

  function RemoveBus(s: Service): (r: Service)
    ensures r.stops == s.stops
    ensures r.nbuses == s.nbuses - 1
  {
    s.(nbuses := s.nbuses - 1)
  }

  /** Toggling keeps the service inside the instance when the stop is. */
  lemma ToggleWellFormed(s: Service, stop: nat, n: nat)
    requires WellFormed(s, n)
    requires stop < n
    ensures WellFormed(Toggle(s, stop), n)
  {
    var r := Toggle(s, stop);
    forall k | 0 <= k < |r.stops|
      ensures r.stops[k] < n
    {
      assert r.stops[k] in r.stops;
    }
  }

  lemma {:induction false} DeleteInsert(stops: seq<nat>, x: nat)
    requires StrictlyIncreasing(stops)
    requires x !in stops
    ensures Delete(Insert(stops, x), x) == stops
  {
    if |stops| > 0 && x > stops[0] {
      DeleteInsert(stops[1..], x);
      assert [stops[0]] + stops[1..] == stops;
    }
  }

  lemma {:induction false} InsertDelete(stops: seq<nat>, x: nat)
    requires StrictlyIncreasing(stops)
    requires x in stops
    ensures Insert(Delete(stops, x), x) == stops
  {
    assert [stops[0]] + stops[1..] == stops;
    if stops[0] != x {
      assert x in stops[1..];
      InsertDelete(stops[1..], x);
    } else if |stops| > 1 {
      assert x < stops[1];
    }
  }

  /** Toggling the same stop twice gives back the service it started from. */
  lemma ToggleTwice(s: Service, stop: nat)
    requires StrictlyIncreasing(s.stops)
    ensures Toggle(Toggle(s, stop), stop) == s
  {
    if stop in s.stops {
      InsertDelete(s.stops, stop);
    } else {
      DeleteInsert(s.stops, stop);
    }
  }

  /** The number of buses a service dispatches per unit time. */
  function Frequency(tt: Matrix, s: Service): (f: real)
    requires IsSquare(tt, |tt|) && StopsIn(s.stops, |tt|)
    requires TripTime(tt, s.stops) != 0.0
    ensures f * TripTime(tt, s.stops) == s.nbuses as real
  {
    1.0 / TripTime(tt, s.stops) * (s.nbuses as real)
  }
}

=== FILE: split_solution.dfy ===
/** `LSSDPSolution` of `solution.py`: the fleet is split between an
    all-stop service and a limited-stop service, and `add_bus` moves one bus
    from the first to the second. */
module SplitSolution {
  import opened Results
  import opened Matrices
  import opened Routes
  import opened Services
  import opened Assignments
  import opened Instances
  import opened Evaluations
  import opened Reports
  import Actions
  import StatsHelper
  import RealSeqs

  datatype Solution = Solution(inst: Instance, ass: Service, lss: Service, eval: Evaluation)

  /** A well-formed instance, an all-stop service over every stop, a sorted
      limited-stop service inside the instance, and a square
      time-to-destination matrix. */
  predicate Good(sol: Solution)
  {
    && Instances.WellFormed(sol.inst)
    && sol.ass.stops == AllStops(NStops(sol.inst))
    && Services.WellFormed(sol.lss, NStops(sol.inst))
    && IsSquare(sol.eval.ttd, NStops(sol.inst))
  }

  /** `inst._oris`: the original all-stop service running the whole fleet. */
  function Original(inst: Instance): Service
  {
    Service(AllStops(NStops(inst)), inst.nbuses)
  }

  /** `max_load`: the passengers a service's fleet carries per dispatch round. */
  function MaxLoad(s: Service, capacity: real): real
  {
    (s.nbuses as real) * capacity
  }

  /** `LSSDPSolution(inst)`: all but one bus on the all-stop service, one on a
      limited-stop service with no stops yet, every figure at the baseline. */
  function New(inst: Instance): (sol: Solution)
    ensures sol.inst == inst
    ensures sol.ass == Service(AllStops(NStops(inst)), inst.nbuses - 1)
    ensures sol.lss == Service([], 1) && !IsValid(sol.lss)
    ensures sol.ass.nbuses + sol.lss.nbuses == inst.nbuses
    ensures sol.eval.obj == 1.0 && sol.eval.prevObj == 1.0
    ensures sol.eval.ttd == inst.baseTtd && sol.eval.flow == inst.baseFlow
    ensures sol.eval.relTtd == TriuOnesLike(inst.baseTtd)
    ensures Instances.WellFormed(inst) ==> Good(sol)
  {
    Solution(inst, Service(AllStops(NStops(inst)), inst.nbuses - 1), Service([], 1), Fresh(inst))
  }

  /** The request of a valid limited-stop service: `[ass.stops, lss.stops]`
      at `[ass.frequency, lss.frequency]`, to the congested solver exactly
      when the instance is. */
  function ServiceRequest(inst: Instance, ass: Service, lss: Service): (req: Request)
    requires Instances.WellFormed(inst) && ass.stops == AllStops(NStops(inst))
    requires Services.WellFormed(lss, NStops(inst)) && IsValid(lss)
    ensures req.alignments == [ass.stops, lss.stops]
    ensures |req.frequencies| == 2
    ensures req.frequencies[0] * TripTime(inst.travelTime, ass.stops) == ass.nbuses as real
    ensures req.frequencies[1] * TripTime(inst.travelTime, lss.stops) == lss.nbuses as real
    ensures req.travelTime == inst.travelTime && req.demand == inst.demand
    ensures req.congestion == CongestionOf(inst)
  {
    AllStopTripTimePositive(inst);
    TripTimePositive(inst.travelTime, lss.stops);
    Request(
      [ass.stops, lss.stops],
      [Frequency(inst.travelTime, ass), Frequency(inst.travelTime, lss)],
      inst.travelTime,
      inst.demand,
      CongestionOf(inst))
  }

  function RequestFor(sol: Solution): Option<Request>
    requires Good(sol)
  {
    if IsValid(sol.lss) then Some(ServiceRequest(sol.inst, sol.ass, sol.lss)) else None
  }

  /** `_calculate_objective` on the current services. */
  function CalculateObjective(sol: Solution, oracle: Oracle): (r: Solution)
    requires Good(sol) && ShapesTtd(oracle, NStops(sol.inst))
    ensures Good(r)
    ensures r.inst == sol.inst && r.ass == sol.ass && r.lss == sol.lss
    ensures r.eval == Recompute(sol.eval, sol.inst, RequestFor(sol), oracle)
  {
    sol.(eval := Recompute(sol.eval, sol.inst, RequestFor(sol), oracle))
  }

  /** `toggle(stop)`: flips one stop of the limited-stop service and
      recomputes; the all-stop service is untouched. */
  function Toggle(sol: Solution, stop: nat, oracle: Oracle): (r: Solution)
    requires Good(sol) && stop < NStops(sol.inst) && ShapesTtd(oracle, NStops(sol.inst))
    ensures Good(r)
    ensures r.inst == sol.inst && r.ass == sol.ass
    ensures r.lss.nbuses == sol.lss.nbuses
    ensures stop in r.lss.stops <==> stop !in sol.lss.stops
    ensures forall y :: y != stop ==> (y in r.lss.stops <==> y in sol.lss.stops)
    ensures r.eval.prevObj == sol.eval.obj
    ensures Services.WellFormed(Services.Toggle(sol.lss, stop), NStops(sol.inst))
    ensures r == CalculateObjective(sol.(lss := Services.Toggle(sol.lss, stop)), oracle)
  {
    ToggleWellFormed(sol.lss, stop, NStops(sol.inst));
    CalculateObjective(sol.(lss := Services.Toggle(sol.lss, stop)), oracle)
  }

  /** `add_bus()`: one bus leaves the all-stop service and joins the
      limited-stop service, so the fleet in use stays the same. */
  function AddBus(sol: Solution, oracle: Oracle): (r: Solution)
    requires Good(sol) && ShapesTtd(oracle, NStops(sol.inst))
    ensures Good(r)
    ensures r.inst == sol.inst
    ensures r.ass.stops == sol.ass.stops && r.ass.nbuses == sol.ass.nbuses - 1
    ensures r.lss.stops == sol.lss.stops && r.lss.nbuses == sol.lss.nbuses + 1
    ensures r.ass.nbuses + r.lss.nbuses == sol.ass.nbuses + sol.lss.nbuses
    ensures r.eval.prevObj == sol.eval.obj
    ensures r == CalculateObjective(sol.(ass := RemoveBus(sol.ass), lss := Services.AddBus(sol.lss)), oracle)
  {
    CalculateObjective(sol.(ass := RemoveBus(sol.ass), lss := Services.AddBus(sol.lss)), oracle)
  }

  /** `terminate()`: only the checkpoint moves. */
  function Terminate(sol: Solution): (r: Solution)
    ensures r.inst == sol.inst && r.ass == sol.ass && r.lss == sol.lss
    ensures r.eval.prevObj == sol.eval.obj && r.eval.obj == sol.eval.obj
    ensures r.eval.ttd == sol.eval.ttd && r.eval.flow == sol.eval.flow && r.eval.relTtd == sol.eval.relTtd
  {
    sol.(eval := Evaluations.Terminate(sol.eval))
  }

  /** `_capacities`: without a valid limited-stop service, three entries per
      leg of the original route at its full load; with one, three per
      all-stop leg at the all-stop load, then three per limited-stop leg at
      the limited-stop load. A service's `nstops` is read as the length of
      its stop list. */
  function Capacities(sol: Solution): (caps: seq<real>)
    ensures var n := NStops(sol.inst);
      !IsValid(sol.lss) && n >= 1 ==>
        |caps| == Legs(n) && forall k :: 0 <= k < |caps| ==> caps[k] == MaxLoad(Original(sol.inst), sol.inst.capacity)
    ensures var a := |sol.ass.stops|;
      IsValid(sol.lss) && a >= 1 ==>
        && |caps| == Legs(a) + Legs(|sol.lss.stops|)
        && (forall k :: 0 <= k < Legs(a) ==> caps[k] == MaxLoad(sol.ass, sol.inst.capacity))
        && (forall k :: Legs(a) <= k < |caps| ==> caps[k] == MaxLoad(sol.lss, sol.inst.capacity))
  {
    if !IsValid(sol.lss) then Repeat(MaxLoad(Original(sol.inst), sol.inst.capacity), Legs(NStops(sol.inst)))
    else
      Repeat(MaxLoad(sol.ass, sol.inst.capacity), Legs(|sol.ass.stops|))
      + Repeat(MaxLoad(sol.lss, sol.inst.capacity), Legs(|sol.lss.stops|))
  }

  /** `stats`. */
  function Stats(sol: Solution): (r: Report)
    requires Good(sol)
    ensures r.ttd == StatsHelper.Calculate(StatsHelper.Grid(sol.eval.ttd), true)
    ensures !sol.inst.congested ==> r.lf == NotCongested
    ensures !IsValid(sol.lss) ==> r.perFlowExp == Some(StatsHelper.Summary(0.0, 0.0, 0.0, Some(0.0)))
    ensures sol.inst.congested ==> (r.lf == ShapeMismatch <==> !Broadcasts(sol.eval.flow, Capacities(sol)))
    ensures var caps := Capacities(sol);
      sol.inst.congested && Broadcasts(sol.eval.flow, caps) ==>
        if exists k :: 0 <= k < |caps| && caps[k] == 0.0 then r.lf == NonFinite
        else r.lf == Factors(StatsHelper.Calculate(StatsHelper.Vector(Divide(sol.eval.flow, caps)), true))
    ensures IsValid(sol.lss) ==> (r.perFlowExp.None? <==> RealSeqs.Sum(sol.eval.flow) == 0.0)
    ensures IsValid(sol.lss) && RealSeqs.Sum(sol.eval.flow) != 0.0 ==>
      var x := RealSeqs.Sum(Drop(sol.eval.flow, Legs(NStops(sol.inst)) as nat)) / RealSeqs.Sum(sol.eval.flow);
      r.perFlowExp == Some(StatsHelper.Summary(x, x, x, Some(x)))
  {
    MakeReport(sol.eval.ttd, sol.eval.flow, Capacities(sol), sol.inst.congested, IsValid(sol.lss), Legs(|sol.ass.stops|) as nat)
  }

  /** Applies the caller's actions in order. */
  function Run(sol: Solution, actions: seq<Actions.Action>, oracle: Oracle): (r: Solution)
    requires Good(sol) && Actions.InRange(actions, NStops(sol.inst)) && ShapesTtd(oracle, NStops(sol.inst))
    ensures Good(r) && r.inst == sol.inst
    decreases |actions|
  {
    if |actions| == 0 then sol
    else
      var next := match actions[0]
        case ToggleStop(stop) => Toggle(sol, stop, oracle)
        case AddOneBus => AddBus(sol, oracle)
        case EndStep => Terminate(sol);
      Run(next, actions[1..], oracle)
  }

  /** Every `add_bus` moves exactly one bus from the all-stop service to the
      limited-stop service, and nothing else moves buses. */
  lemma {:induction false} RunMovesBuses(sol: Solution, actions: seq<Actions.Action>, oracle: Oracle)
    requires Good(sol) && Actions.InRange(actions, NStops(sol.inst)) && ShapesTtd(oracle, NStops(sol.inst))
    ensures var r := Run(sol, actions, oracle);
      && r.lss.nbuses == sol.lss.nbuses + Actions.BusesAdded(actions)
      && r.ass.nbuses == sol.ass.nbuses - Actions.BusesAdded(actions)
    decreases |actions|
  {
    if |actions| > 0 {
      var next := match actions[0]
        case ToggleStop(stop) => Toggle(sol, stop, oracle)
        case AddOneBus => AddBus(sol, oracle)
        case EndStep => Terminate(sol);
      assert Actions.InRange(actions[1..], NStops(sol.inst)) by {
        forall k | 0 <= k < |actions[1..]| && actions[1..][k].ToggleStop?
          ensures actions[1..][k].stop < NStops(sol.inst)
        {
          assert actions[1..][k] == actions[k + 1];
        }
      }
      RunMovesBuses(next, actions[1..], oracle);
    }
  }

  /** The fleet is conserved: after any sequence of actions from a new
      solution, the two services together run exactly the instance's buses. */
  lemma FleetConserved(inst: Instance, actions: seq<Actions.Action>, oracle: Oracle)
    requires Instances.WellFormed(inst) && Actions.InRange(actions, NStops(inst)) && ShapesTtd(oracle, NStops(inst))
    ensures var r := Run(New(inst), actions, oracle);
      && r.ass.nbuses + r.lss.nbuses == inst.nbuses
      && r.lss.nbuses == 1 + Actions.BusesAdded(actions)
  {
    RunMovesBuses(New(inst), actions, oracle);
  }
}

=== FILE: stats.dfy ===
/** `calculate_stats`: the (min, mean, max, sum) summary of an array, where a
    square matrix contributes only its strict upper triangle. */
module StatsHelper {
  import opened Results
  import opened Matrices
  import RealSeqs

  /** The two array shapes the source passes in: a flat vector or a 2-D array. */
  datatype Values = Vector(items: seq<real>) | Grid(rows: Matrix)

  /** numpy arrays are rectangular: every row of a 2-D array has one length. */
  predicate Rectangular(rows: Matrix)
  {
    forall i :: 0 <= i < |rows| ==> |rows[i]| == |rows[0]|
  }

  predicate WellShaped(v: Values)
  {
    v.Grid? ==> Rectangular(v.rows)
  }

  /** The four-slot summary; `total` is `None` where the source puts NaN. */
  datatype Summary = Summary(min: real, mean: real, max: real, total: Option<real>)

  /** The entries strictly above the diagonal of rows `i..` of a square
      matrix, row by row, as `arr[np.triu_indices_from(arr, k=1)]` lists them. */
  function UpperFrom(m: Matrix, i: nat): seq<real>
    requires IsSquare(m, |m|)
    requires i <= |m|
    decreases |m| - i
  {
    if i == |m| then [] else m[i][i + 1..] + UpperFrom(m, i + 1)
  }

  function UpperValues(m: Matrix): seq<real>
    requires IsSquare(m, |m|)
  {
    UpperFrom(m, 0)
  }

  /** Rows `i..` of an n-by-n matrix hold (n-i)(n-i-1)/2 strictly-upper entries. */
  lemma {:induction false} UpperFromCount(m: Matrix, i: nat)
    requires IsSquare(m, |m|)
    requires i <= |m|
    ensures 2 * |UpperFrom(m, i)| == (|m| - i) * (|m| - i - 1)
    decreases |m| - i
  {
    if i < |m| {
      UpperFromCount(m, i + 1);
      var k := |m| - i - 1;
      assert |m[i][i + 1..]| == k;
      assert (k + 1) * k == 2 * k + k * (k - 1);
    }
  }

  /** The number of strictly-upper entries in rows `i..r-1` of an n-by-n
      matrix: row t holds n-1-t of them. */
  function RowsBetween(n: nat, i: nat, r: nat): nat
    requires i <= r <= n
    decreases r - i
  {
    if r == i then 0 else RowsBetween(n, i, r - 1) + (n - r)
  }

  /** Where entry (r, j), r < j, sits in the row-by-row listing of the strict
      upper triangle of an n-by-n matrix. */
  function UpperIndex(n: nat, r: nat, j: nat): nat
    requires r < j <= n
  {
    RowsBetween(n, 0, r) + (j - r - 1)
  }

  /** Exactly the entries with row < column are selected, n(n-1)/2 of them. */
  lemma UpperValuesAreStrictUpper(m: Matrix)
    requires IsSquare(m, |m|)
    ensures 2 * |UpperValues(m)| == |m| * (|m| - 1)
    ensures forall i, j :: 0 <= i < j < |m| ==> m[i][j] in UpperValues(m)
    ensures forall x :: x in UpperValues(m) ==> exists i, j :: 0 <= i < j < |m| && m[i][j] == x
  {
    UpperFromCount(m, 0);
    UpperFromMembers(m, 0);
  }

  /** Each strictly-upper entry is selected once, in row order: position
      `UpperIndex(n, i, j)` holds entry (i, j), and position k holds the entry
      `UpperEntry(n, k)` whose index is k, so the selection has the matrix's
      multiplicities. */
  lemma UpperValuesInRowOrder(m: Matrix)
    requires IsSquare(m, |m|)
    ensures |UpperValues(m)| == RowsBetween(|m|, 0, |m|)
    ensures forall i, j :: 0 <= i < j < |m| ==>
      UpperIndex(|m|, i, j) < |UpperValues(m)| && UpperValues(m)[UpperIndex(|m|, i, j)] == m[i][j]
    ensures forall k :: 0 <= k < |UpperValues(m)| ==>
      UpperValues(m)[k] == m[UpperEntry(|m|, k).0][UpperEntry(|m|, k).1]
  {
    UpperFromLength(m, 0);
    forall i, j | 0 <= i < j < |m|
      ensures UpperIndex(|m|, i, j) < |UpperValues(m)| && UpperValues(m)[UpperIndex(|m|, i, j)] == m[i][j]
    {
      UpperFromAt(m, 0, i, j);
    }
    forall k | 0 <= k < |UpperValues(m)|
      ensures UpperValues(m)[k] == m[UpperEntry(|m|, k).0][UpperEntry(|m|, k).1]
    {
      var p := UpperEntry(|m|, k);
      UpperFromAt(m, 0, p.0, p.1);
    }
  }

  /** Rows `i..r-1` are row i followed by rows `i+1..r-1`. */
  lemma {:induction false} RowsBetweenSplit(n: nat, i: nat, r: nat)
    requires i < r <= n
    ensures RowsBetween(n, i, r) == (n - 1 - i) + RowsBetween(n, i + 1, r)
    decreases r - i
  {
    if r > i + 1 {
      RowsBetweenSplit(n, i, r - 1);
    }
  }

  /** Rows `i..` of an n-by-n matrix hold `RowsBetween(n, i, n)` upper entries. */
  lemma {:induction false} UpperFromLength(m: Matrix, i: nat)
    requires IsSquare(m, |m|)
    requires i <= |m|
    ensures |UpperFrom(m, i)| == RowsBetween(|m|, i, |m|)
    decreases |m| - i
  {
    if i < |m| {
      UpperFromLength(m, i + 1);
      RowsBetweenSplit(|m|, i, |m|);
      assert |m[i][i + 1..]| == |m| - 1 - i;
    }
  }

  /** In `UpperFrom(m, i)`, entry (r, j) sits after the entries of rows
      `i..r-1`. */
  lemma {:induction false} UpperFromAt(m: Matrix, i: nat, r: nat, j: nat)
    requires IsSquare(m, |m|)
    requires i <= r < j < |m|
    ensures RowsBetween(|m|, i, r) + (j - r - 1) < |UpperFrom(m, i)|
    ensures UpperFrom(m, i)[RowsBetween(|m|, i, r) + (j - r - 1)] == m[r][j]
    decreases r - i
  {
    var row := m[i][i + 1..];
    assert UpperFrom(m, i) == row + UpperFrom(m, i + 1);
    if r == i {
      assert row[j - i - 1] == m[i][j];
    } else {
      UpperFromAt(m, i + 1, r, j);
      RowsBetweenSplit(|m|, i, r);
    }
  }

  /** The (row, column) of the k-th strictly-upper entry of rows `i..` of an
      n-by-n matrix, listed row by row: the inverse of the position. */
  function EntryFrom(n: nat, i: nat, k: nat): (p: (nat, nat))
    requires i <= n
    requires k < RowsBetween(n, i, n)
    ensures i <= p.0 < p.1 < n
    ensures k == RowsBetween(n, i, p.0) + (p.1 - p.0 - 1)
    decreases n - i
  {
    RowsBetweenSplit(n, i, n);
    if k < n - 1 - i then (i, i + 1 + k)
    else
      var p := EntryFrom(n, i + 1, k - (n - 1 - i));
      RowsBetweenSplit(n, i, p.0);
      p
  }

  /** The (row, column) of the entry at position k of `UpperValues`. */
  function UpperEntry(n: nat, k: nat): (p: (nat, nat))
    requires k < RowsBetween(n, 0, n)
    ensures p.0 < p.1 < n && UpperIndex(n, p.0, p.1) == k
  {
    EntryFrom(n, 0, k)
  }

  /** Rows `i..` of a square matrix contribute exactly their strictly-upper
      entries. */
  lemma {:induction false} UpperFromMembers(m: Matrix, i: nat)
    requires IsSquare(m, |m|)
    requires i <= |m|
    ensures forall r, j :: i <= r < j < |m| ==> m[r][j] in UpperFrom(m, i)
    ensures forall x :: x in UpperFrom(m, i) ==> exists r, j :: i <= r < j < |m| && m[r][j] == x
    decreases |m| - i
  {
    if i < |m| {
      UpperFromMembers(m, i + 1);
      var row := m[i][i + 1..];
      assert UpperFrom(m, i) == row + UpperFrom(m, i + 1);
      forall j | i < j < |m|
        ensures m[i][j] in UpperFrom(m, i)
      {
        assert row[j - i - 1] == m[i][j];
      }
      forall x | x in row
        ensures exists r, j :: i <= r < j < |m| && m[r][j] == x
      {
        var k :| 0 <= k < |row| && row[k] == x;
        assert m[i][i + 1 + k] == x;
      }
    }
  }

  /** The selection ignores the diagonal and the lower triangle: two square
      matrices that agree strictly above the diagonal select the same values. */
  lemma {:induction false} UpperFromIgnoresLower(a: Matrix, b: Matrix, i: nat)
    requires IsSquare(a, |a|) && IsSquare(b, |a|)
    requires forall r, j :: 0 <= r < j < |a| ==> a[r][j] == b[r][j]
    requires i <= |a|
    ensures UpperFrom(a, i) == UpperFrom(b, i)
    decreases |a| - i
  {
    if i < |a| {
      UpperFromIgnoresLower(a, b, i + 1);
      assert a[i][i + 1..] == b[i][i + 1..];
    }
  }

  /** The values `calculate_stats` summarises: the strict upper triangle of a
      square 2-D array, every entry of any other array. */
  function Selected(v: Values): seq<real>
    requires WellShaped(v)
  {
    match v
    case Vector(items) => items
    case Grid(rows) => if IsSquare(rows, |rows|) then UpperValues(rows) else Flatten(rows)
  }

  /** The summary of a flat selection: `None` where numpy's `np.min` raises
      on an empty array; otherwise the least, mean, greatest and (when
      `withSum`) total of the values, with NaN in the fourth slot otherwise. */
  function Summarise(s: seq<real>, withSum: bool): (r: Option<Summary>)
    ensures r.None? <==> |s| == 0
    ensures r.Some? ==> r.value.min in s && r.value.max in s
    ensures r.Some? ==> forall k :: 0 <= k < |s| ==> r.value.min <= s[k] <= r.value.max
    ensures r.Some? ==> r.value.mean == RealSeqs.Sum(s) / (|s| as real)
    ensures r.Some? ==> r.value.min <= r.value.mean <= r.value.max
    ensures r.Some? ==> (r.value.total.Some? <==> withSum)
    ensures r.Some? && withSum ==> r.value.total.value == RealSeqs.Sum(s)
  {
    if |s| == 0 then None
    else
      var lo, hi := RealSeqs.Min(s), RealSeqs.Max(s);
      var total := if withSum then Some(RealSeqs.Sum(s)) else None;
      Some(Summary(lo, Mean(s), hi, total))
  }

  /** `np.mean`: the total over the count, which lies between the least
      and greatest values. */
  function Mean(s: seq<real>): (m: real)
    requires |s| > 0
    ensures m == RealSeqs.Sum(s) / (|s| as real)
    ensures RealSeqs.Min(s) <= m <= RealSeqs.Max(s)
  {
    MeanWithinBounds(s, RealSeqs.Min(s), RealSeqs.Max(s));
    RealSeqs.Sum(s) / (|s| as real)
  }

  /** `calculate_stats(arr, sum)`: the summary of the selected values.
      `CalculateOnSquare`, `SingleValueSummary` and `CalculateIgnoresLower`
      state what it computes. */
  function Calculate(v: Values, withSum: bool): Option<Summary>
    requires WellShaped(v)
  {
    Summarise(Selected(v), withSum)
  }

  /** `calculate_stats([x])`: every slot of a one-value summary is that value. */
  lemma SingleValueSummary(x: real)
    ensures Calculate(Vector([x]), true) == Some(Summary(x, x, x, Some(x)))
  {
    assert RealSeqs.Sum([x]) == x + RealSeqs.Sum([x][1..]);
    assert [x][1..] == [];
  }

  /** On a square n-by-n matrix the summary ranges over the strict upper
      triangle alone: it is missing for fewer than two stops, and otherwise
      its least and greatest values are upper entries that bound every upper
      entry, whatever the diagonal and lower triangle hold. */
  lemma CalculateOnSquare(m: Matrix, withSum: bool)
    requires IsSquare(m, |m|)
    ensures Calculate(Grid(m), withSum).None? <==> |m| < 2
    ensures var r := Calculate(Grid(m), withSum);
      r.Some? ==>
        && (exists i, j :: 0 <= i < j < |m| && m[i][j] == r.value.min)
        && (exists i, j :: 0 <= i < j < |m| && m[i][j] == r.value.max)
        && (forall i, j :: 0 <= i < j < |m| ==> r.value.min <= m[i][j] <= r.value.max)
  {
    var vals := UpperValues(m);
    UpperValuesAreStrictUpper(m);
    assert Selected(Grid(m)) == vals;
    if |m| >= 2 {
      assert 2 * |vals| >= 2;
    }
    var r := Calculate(Grid(m), withSum);
    if r.Some? {
      forall i, j | 0 <= i < j < |m|
        ensures r.value.min <= m[i][j] <= r.value.max
      {
        var k :| 0 <= k < |vals| && vals[k] == m[i][j];
      }
    }
  }

  /** The mean of values that all lie in `[lo, hi]` lies in `[lo, hi]` too. */
  lemma MeanWithinBounds(s: seq<real>, lo: real, hi: real)
    requires |s| > 0
    requires forall k :: 0 <= k < |s| ==> lo <= s[k] <= hi
    ensures lo <= RealSeqs.Sum(s) / (|s| as real) <= hi
  {
    var c := |s| as real;
    var total := RealSeqs.Sum(s);
    RealSeqs.SumBounds(s, lo, hi);
    DivideBounds(c, lo, hi, total);
  }

  lemma DivideBounds(c: real, lo: real, hi: real, total: real)
    requires c > 0.0
    requires c * lo <= total <= c * hi
    ensures lo <= total / c <= hi
  {
    var mid := total / c;
    assert total == c * mid;
    assert c * (mid - lo) >= 0.0;
    assert c * (hi - mid) >= 0.0;
  }

  /** The summary of a square matrix depends only on its strict upper triangle. */
  lemma CalculateIgnoresLower(a: Matrix, b: Matrix, withSum: bool)
    requires IsSquare(a, |a|) && IsSquare(b, |a|)
    requires forall r, j :: 0 <= r < j < |a| ==> a[r][j] == b[r][j]
    ensures Rectangular(a) && Rectangular(b)
    ensures Calculate(Grid(a), withSum) == Calculate(Grid(b), withSum)
  {
    UpperFromIgnoresLower(a, b, 0);
  }
}

=== FILE: variants.dfy ===
/** The two `LSSDPSolution` variants describe the same environment: the
    split-fleet variant keeps the all-stop bus count in a service of its own,
    the other derives it from the instance's fleet, and as long as the two
    agree every observable figure agrees. */
module Variants {
  import opened Results
  import opened Routes
  import opened Services
  import opened Assignments
  import opened Instances
  import Actions
  import L = LssdpSolution
  import S = SplitSolution

  /** The split solution's all-stop service runs over every stop with exactly
      the buses the limited-stop service leaves over; the rest is shared. */
  predicate Corresponds(a: L.Solution, b: S.Solution)
  {
    && a.inst == b.inst
    && a.lss == b.lss
    && a.eval == b.eval
    && b.ass == Service(AllStops(NStops(a.inst)), L.AllStopBuses(a))
  }

  /** Both constructors start in corresponding states. */
  lemma NewCorresponds(inst: Instance)
    ensures Corresponds(L.New(inst), S.New(inst))
  {
  }

  /** Corresponding solutions are good together. */
  lemma GoodAgree(a: L.Solution, b: S.Solution)
    requires Corresponds(a, b)
    ensures L.Good(a) <==> S.Good(b)
  {
  }

  /** Corresponding solutions ask the assignment for the same request, or
      both for none. */
  lemma {:induction false} RequestsAgree(a: L.Solution, b: S.Solution)
    requires Corresponds(a, b) && L.Good(a) && S.Good(b)
    ensures L.RequestFor(a) == S.RequestFor(b)
  {
    if IsValid(a.lss) {
      var ra := L.ServiceRequest(a.inst, a.lss);
      var rb := S.ServiceRequest(b.inst, b.ass, b.lss);
      AllStopTripTimePositive(a.inst);
      assert ra.frequencies[0] == rb.frequencies[0] by {
        QuotientUnique(ra.frequencies[0], rb.frequencies[0], AllStopTripTime(a.inst), L.AllStopBuses(a) as real);
      }
      TripTimePositive(a.inst.travelTime, a.lss.stops);
      assert ra.frequencies[1] == rb.frequencies[1] by {
        QuotientUnique(ra.frequencies[1], rb.frequencies[1], TripTime(a.inst.travelTime, a.lss.stops), a.lss.nbuses as real);
      }
      assert ra.frequencies == rb.frequencies;
    }
  }

  lemma QuotientUnique(x: real, y: real, t: real, b: real)
    requires t != 0.0 && x * t == b && y * t == b
    ensures x == y
  {
    assert (x - y) * t == 0.0;
  }

  /** Corresponding solutions report the same capacity vector, with a
      service's `nstops` read as the length of its stop list. */
  lemma CapacitiesAgree(a: L.Solution, b: S.Solution)
    requires Corresponds(a, b) && L.Good(a)
    ensures L.Capacities(a) == S.Capacities(b)
  {
    var ca, cb := L.Capacities(a), S.Capacities(b);
    assert |b.ass.stops| == NStops(a.inst);
    assert |ca| == |cb|;
    forall k | 0 <= k < |ca|
      ensures ca[k] == cb[k]
    {
    }
  }

  /** Corresponding solutions report the same statistics. */
  lemma StatsAgree(a: L.Solution, b: S.Solution)
    requires Corresponds(a, b) && L.Good(a) && S.Good(b)
    ensures L.Stats(a) == S.Stats(b)
  {
    CapacitiesAgree(a, b);
  }

  /** Each action takes corresponding solutions to corresponding solutions. */
  lemma StepAgrees(a: L.Solution, b: S.Solution, act: Actions.Action, oracle: Oracle)
    requires Corresponds(a, b) && L.Good(a) && S.Good(b) && ShapesTtd(oracle, NStops(a.inst))
    requires act.ToggleStop? ==> act.stop < NStops(a.inst)
    ensures match act
      case ToggleStop(stop) => Corresponds(L.Toggle(a, stop, oracle), S.Toggle(b, stop, oracle))
      case AddOneBus => Corresponds(L.AddBus(a, oracle), S.AddBus(b, oracle))
      case EndStep => Corresponds(L.Terminate(a), S.Terminate(b))
  {
    match act
    case ToggleStop(stop) =>
      var a' := a.(lss := Services.Toggle(a.lss, stop));
      var b' := b.(lss := Services.Toggle(b.lss, stop));
      ToggleWellFormed(a.lss, stop, NStops(a.inst));
      RequestsAgree(a', b');
    case AddOneBus =>
      var a' := a.(lss := Services.AddBus(a.lss));
      var b' := b.(ass := RemoveBus(b.ass), lss := Services.AddBus(b.lss));
      assert Corresponds(a', b');
      RequestsAgree(a', b');
    case EndStep =>
  }

  /** Any run of actions takes corresponding solutions to corresponding
      solutions, so the two variants cannot be told apart by their
      objective, time to destination, flow or statistics. */
  lemma {:induction false} RunsAgree(a: L.Solution, b: S.Solution, actions: seq<Actions.Action>, oracle: Oracle)
    requires Corresponds(a, b) && L.Good(a) && S.Good(b) && ShapesTtd(oracle, NStops(a.inst))
    requires Actions.InRange(actions, NStops(a.inst))
    ensures Corresponds(L.Run(a, actions, oracle), S.Run(b, actions, oracle))
    decreases |actions|
  {
    if |actions| > 0 {
      var n := NStops(a.inst);
      StepAgrees(a, b, actions[0], oracle);
      var a' := match actions[0]
        case ToggleStop(stop) => L.Toggle(a, stop, oracle)
        case AddOneBus => L.AddBus(a, oracle)
        case EndStep => L.Terminate(a);
      var b' := match actions[0]
        case ToggleStop(stop) => S.Toggle(b, stop, oracle)
        case AddOneBus => S.AddBus(b, oracle)
        case EndStep => S.Terminate(b);
      assert Actions.InRange(actions[1..], n) by {
        forall k | 0 <= k < |actions[1..]| && actions[1..][k].ToggleStop?
          ensures actions[1..][k].stop < n
        {
          assert actions[1..][k] == actions[k + 1];
        }
      }
      RunsAgree(a', b', actions[1..], oracle);
    }
  }

  /** From the two constructors, the variants agree after every run. */
  lemma FromNewAgree(inst: Instance, actions: seq<Actions.Action>, oracle: Oracle)
    requires Instances.WellFormed(inst) && ShapesTtd(oracle, NStops(inst))
    requires Actions.InRange(actions, NStops(inst))
    ensures var a := L.Run(L.New(inst), actions, oracle);
      var b := S.Run(S.New(inst), actions, oracle);
      && a.eval == b.eval && a.lss == b.lss
      && L.Stats(a) == S.Stats(b)
  {
    NewCorresponds(inst);
    RunsAgree(L.New(inst), S.New(inst), actions, oracle);
    StatsAgree(L.Run(L.New(inst), actions, oracle), S.Run(S.New(inst), actions, oracle));
  }
}
